=== FILE: README.md ===
# DAO AI Builder: the decision rules of the builder's server

The DAO AI Builder is a Flask server plus a small standalone backend. Together they let a
user assemble an agent configuration, browse the user's Databricks workspace through a
proxy, and deploy the agent. Most of the server is glue around the Databricks SDK, MLflow and
the `dao_ai` library. This project models the deterministic core underneath that glue as pure
Dafny functions over immutable records. The HTTP client, the SDK, MLflow and the process
environment become parameters.

The model covers:

- **Credential resolution.** The five-way token chain (session, `Bearer` header, forwarded
  OBO token, SDK, `DATABRICKS_TOKEN`) and the four-way host chain (session, `X-Databricks-Host`,
  SDK, `DATABRICKS_HOST`), each as a total function returning `(value, source)`. Also
  `normalize_host`, `is_databricks_app_url` and the masking rules of the auth debug endpoint.
- **The main proxy.** Its own token order (a `Bearer` header beats a session), the 401-before-400
  rejection order, target URL construction, the OAuth-scope heuristic for 403 answers, and the
  relaying of the upstream reply or a 502.
- **The standalone backend.** `get_auth_token` and its proxy (`backend/main.py`).
- **Variable references.** A plain string, `{"env": …}`, `{"scope", "secret"}` or
  `{"options": […]}`, resolved recursively against an environment map and an abstract secret store.
- **Listing helpers.** The owner-first sort, the warehouse state sort, and the prompt helpers:
  short name, descending version list, and template version selection by version, alias or
  `latest`. Python's `int()` on version strings is modelled for ASCII digits, and `str()` on
  integers exactly.
- **Process environment handling.** The save/clear/set/restore sequences of the prompt handlers
  and of the deployment worker, over `map<string, string>`.
- **Deployment.** `validate_deployment`'s errors and warnings as a function of the configuration
  value (with Python's `AttributeError`/`TypeError` on ill-shaped values), and `deploy_quick`'s
  credential pre-checks.
- **The deployment job tracker.** The job record, the worker's stages and cancellation gates,
  its failure handler, and the status, list and cancel endpoints. Each lock-guarded block is one
  atomic transition. A worker run is modelled with one cancellation request at any point and an
  optional exception after any stage or in the `finally` block that restores the environment.

Quirks of the code are modelled as written:

- `normalize_host` keeps `http://`, and a blank host becomes the non-fixed-point `"https://"`.
- An empty session token still wins, and `"Bearer "` yields an empty manual token.
- Step 0 reads `completed` even after a cancellation during validation.
- The failure handler ignores the cancellation flag.
- `agents: null` makes validation raise, so the endpoint answers 500.
- The 401 branch of `deploy_quick` is unreachable. `QuickPrecheck` proves that every rejection the
  pre-check itself makes is a 400.
- Once the prompt handlers clear the authentication variables, `DATABRICKS_TOKEN` can no longer
  supply their fallback token.

Python integer semantics need no width modelling: the values involved (version counts, list
lengths) are unbounded Python integers.

## Model

| member | source | states |
|---|---|---|
| Hosts.NormalizeHost | app.py:126-133 | An empty host stays empty. Any other host ends with its stripped, slash-trimmed form and carries a scheme: a trimmed host that already starts with `http://` or `https://` is returned as it is, otherwise `https://` is put in front. |
| Hosts.NormalizeHasNoTrailingSlash | app.py:126-133 | When the trimmed host is non-empty, the normalised host is non-empty and does not end in `/`. |
| Hosts.NormalizeIdempotent | app.py:126-133 | Normalising twice equals normalising once, for any host whose trimmed form is non-empty and does not end in whitespace. |
| Hosts.NormalizeAddsScheme | app.py:131-133 | A clean host without a scheme gets exactly `https://` in front. |
| Hosts.NormalizeKeepsScheme | app.py:131-132 | A clean host that already has a scheme (including `http://`) is returned unchanged. |
| Hosts.NormalizeIgnoresTrailingSlash | app.py:130 | A trailing `/` makes no difference to the normalised host. |
| Hosts.NormalizeBlank | app.py:126-133 | A host of only whitespace and slashes normalises to `"https://"`. |
| Hosts.NormalizeBareSchemeIsNotFixedPoint | app.py:126-133 | `"https://"` is not a fixed point: normalising it again gives `"https://https:"`. |
| Hosts.NormalizeKeepsExposedSpace | app.py:130 | Slash-trimming after stripping can expose a trailing space: `"a /"` becomes `"https://a "`. |
| Hosts.NormalizeSecondPassDropsSpace | app.py:129 | A second pass strips that space, so `"a /"` is a counterexample to idempotence. |
| Hosts.IsDatabricksAppUrl | app.py:136-152 | True exactly when the host is non-empty and its lowercase form contains `databricksapps.com`. |
| Credentials.BearerToken | app.py:212-214 | A token is extracted exactly when the header starts with `Bearer `, and it is the remainder after that prefix. |
| Credentials.ResolveToken | app.py:183-236 | No token exactly when no source offers one. Otherwise the token is the offer of the returned source, and every higher-priority source (session, header, OBO, SDK, env) offered nothing. |
| Credentials.SessionTokenWinsEvenIfEmpty | app.py:205-209 | An empty session token is still returned, with source `oauth`. |
| Credentials.EmptyBearerIsManual | app.py:212-214 | `"Bearer "` alone yields the empty token with source `manual`. |
| Credentials.EmptyTokensFallThrough | app.py:217-236 | Empty forwarded, SDK and env tokens are skipped, so nothing is found. |
| Credentials.ResolveTokenDependsOnlyOnWinner | app.py:183-236 | Changing any lower-priority source leaves the resolved token unchanged. |
| Credentials.ResolveHost | app.py:245-294 | No host exactly when no source offers one. Otherwise the host is the offer of the returned source, every higher-priority source offered nothing, and every non-session host has a scheme because it was normalised. |
| Credentials.ResolveHostIgnoresForwardedHost | app.py:245-294 | `X-Forwarded-Host` never influences the resolved host. |
| Credentials.ResolveHostDependsOnlyOnWinner | app.py:245-294 | Changing any lower-priority source leaves the resolved host unchanged. |
| Credentials.MaskEnvValue | app.py:643-651 | Unset or empty variables show nothing. Token and secret values show as exactly `***` plus their last four characters, or as `***` alone when they have four or fewer. Client ids longer than eight characters show as exactly their first eight characters plus `...`; shorter ones are shown whole. Every other variable is shown unchanged. |
| Credentials.MaskHeaderValue | app.py:660-666 | A header whose name contains `Token` shows as exactly `***` plus its last four characters, or `***` alone when it has four or fewer. Other headers are shown as is, and absent or empty ones not at all. |
| Credentials.MaskedSecretHidesLongValues | app.py:646-649 | A secret longer than 7 characters is never shown in full. |
| Credentials.MaskEnvIdempotent | app.py:643-651 | Masking an already masked value changes nothing, for every key: the mask keeps nothing a second pass would strip. |
| Credentials.HeaderMaskMatchesEnvMask | app.py:643-666 | A header named with `Token` is masked exactly like an environment variable whose key contains `TOKEN`. |
| Proxy.AnyPatternIn | app.py:810-843 | True exactly when one of a rule's patterns is a substring of the lowercased path. |
| Proxy.FirstMatch | app.py:840-843 | Returns the first rule, in table order, that matches; none when no rule at or after the start matches. |
| Proxy.RequiredScopes | app.py:808-845 | The result is never empty. It is the scope list of the first matching table rule, or the default `sql`, serving and files scopes when no rule matches. |
| Proxy.EndpointsRuleComesFirst | app.py:808-845 | A path containing `/endpoints` but neither `/sql/` nor `/warehouses` needs the serving scope only. |
| Proxy.VectorSearchEndpointsExample | app.py:808-845 | `api/2.0/vector-search/endpoints` falls into the `/endpoints` group (first match, not longest match) and needs the serving scope. |
| Proxy.ProxyToken | app.py:714-730 | A `Bearer` header is used first, as a manual token. Without one, the proxy defers to the token resolver. |
| Proxy.ProxyTokenMatchesResolverWithoutSession | app.py:714-730 | Without a session token, the proxy and the resolver choose the same token. |
| Proxy.BearerBeatsSessionInProxy | app.py:714-730 | With both a session and a `Bearer` header, the proxy uses the header while the resolver uses the session. |
| Proxy.TargetUrl | app.py:744-749 | The URL starts with host, `/`, path. It continues with `?` and the query exactly when the query is non-empty. |
| Proxy.SplitQueryAt | app.py:744-749 | Splitting at the first `?` separates a `?`-free path from what follows. |
| Proxy.TargetUrlRoundTrip | app.py:744-749 | The path and the query can be recovered from the target URL after the host prefix. |
| Proxy.PlanProxy | app.py:714-755 | 401 exactly when no token is found. 400 exactly when a token is found but no host. Otherwise the request goes to the resolved host's target URL with `Bearer <token>` and the token's source. |
| Proxy.ErrorMessage | app.py:774-776 | A message is read only from a JSON object body: its `message` field when truthy, else its `error` field, and only when that field is a string. |
| Proxy.FieldOrEmpty | app.py:776 | A missing field reads as the empty string; a present one as its value. |
| Proxy.Answer | app.py:773-805 | A connection error becomes exactly the 502 with its message. A 401 or 403 whose message mentions `scope` in any case becomes the scope-denied answer, carrying that status, the upstream message, its `error_code` (or `null`), the path's required scopes, the configured scopes and the help text built from the required scopes. Every other reply is relayed with its status, body, content type (JSON by default) and the token source. |
| Proxy.OtherStatusesAreRelayed | app.py:777-805 | A reply whose status is neither 401 nor 403 is relayed unchanged, whatever its body says. |
| Proxy.ScopeMessageIsDenied | app.py:777-791 | A 401 or 403 whose `message` mentions `scope` in any letter case is denied with that message as written, a `null` error code and the help text for the path's scopes. |
| Proxy.JoinNamesEveryPart | app.py:788 | Every part occurs in the `", ".join` of the parts. |
| Proxy.ScopeHelpNamesEveryScope | app.py:787-789 | The help text of a scope denial names every scope the path needs. |
| Proxy.ProxyDatabricks | app.py:698-805 | The rejections come exactly from the plan. Only a forwarded request reaches the upstream, and its reply is answered as above. |
| Proxy.RejectionIgnoresUpstream | app.py:731-742 | A rejected request never depends on what the upstream would answer. |
| Proxy.EmptyBearerIsUnauthorized | app.py:714-737 | `"Bearer "` yields an empty token, so the proxy answers 401 whatever else the request carries. |
| Backend.GetAuthToken | backend/main.py:61-83 | A non-empty forwarded token is used with source `header`. Otherwise `DATABRICKS_TOKEN` is used, with source `env` only when it is non-empty. The source is absent exactly when the token is falsy. The host always comes from `DATABRICKS_HOST`. |
| Backend.EmptyEnvTokenHasNoSource | backend/main.py:61-71 | An empty `DATABRICKS_TOKEN` is returned as the token, with no source. |
| Backend.BackendToken | backend/main.py:95-97 | The forwarded token when non-empty, else the env token. |
| Backend.BackendHost | backend/main.py:103-104 | `X-Databricks-Host` when non-empty, else `DATABRICKS_HOST`. |
| Backend.PlanBackendProxy | backend/main.py:95-122 | 401 exactly when neither token source is set. 400 exactly when a token exists but neither host source is set. Otherwise the request carries `Bearer <token>` and a JSON content type, and goes to the host without trailing slashes, then `/` and the path, then the query when it is non-empty. |
| Backend.HostTrailingSlashesIgnored | backend/main.py:111-116 | Extra trailing slashes on the host do not change the target URL. |
| Backend.NoSchemeAdded | backend/main.py:111-116 | The target starts with the host as given, without a scheme added. |
| Backend.BackendProxy | backend/main.py:86-141 | The 401 and 400 answers come exactly from the plan. A forwarded request gets the upstream's status and body, or the single 502 with the connection error's text. |
| Variables.ResolveSecret | app.py:913-965 | A falsy scope or key resolves to nothing. Otherwise the result is whatever the secret store yields, or nothing when it fails. |
| Variables.Resolve | app.py:968-1009 | `None` gives nothing and a string gives itself. Any other value that is not a dictionary gives its `str()` when truthy and nothing otherwise. In a dictionary an `env` key is consulted first: it yields the variable's value or nothing, and it raises when the name is not a string. Next comes a secret reference, which needs both `scope` and `secret`, and then `options`, which resolves as iterating that value does. A dictionary that is none of the three forms gives its `str()` when non-empty. |
| Variables.ResolveOptions | app.py:1001-1007 | Iterating a non-iterable value (`None`, a boolean, an integer) raises `TypeError`. A string's options are its characters. The result is never a falsy value that was skipped. |
| Variables.FirstResolved | app.py:1003-1007 | The loop never returns a falsy resolution other than `None`: a falsy option is skipped, and an exception raised by an option ends the loop. |
| Variables.FirstResolvedIsFirstDecisive | app.py:1003-1007 | The result is the resolution of some option, and every earlier option resolved to something falsy. |
| Variables.FirstResolvedAppend | app.py:1003-1007 | Options after a decisive prefix are never consulted. Otherwise the prefix is transparent. |
| Variables.NestedOptionsFlatten | app.py:1001-1007 | An `options` item nested first in a list acts like its own options spliced in front. |
| Variables.EnvReference | app.py:992-994 | `{"env": name}` resolves to that variable's value, or nothing when it is unset. |
| Variables.NonStringEnvNameRaises | app.py:992-994 | A non-string `env` name raises, since the environment is keyed by strings. |
| Variables.ServicePrincipalCredentials | app.py:1012-1031 | A falsy or non-dict config gives no credentials. Otherwise `client_id` and `client_secret` are resolved independently. |
| Variables.FirstNonEmpty | app.py:1001-1007 | When `options` is a dictionary, the loop runs over its keys, each resolving to itself: the result is the first non-empty key, and nothing exactly when every key is empty. |
| Sorting.Sort | app.py:1041 | The result is a permutation of the input, sorted by key (ascending or descending). |
| Sorting.SortStable | app.py:1041 | Elements with equal keys keep their relative order, as Python's `sorted` guarantees. |
| Sorting.SortSortedIsIdentity | app.py:1041 | Sorting an already sorted list changes nothing. |
| Sorting.SortIdempotent | app.py:1041 | Sorting twice equals sorting once. |
| Sorting.StrLtTransitive | app.py:1041 | String order is transitive. |
| Sorting.StrLtTotal | app.py:1041 | String order is total. |
| Sorting.AheadTransitive | app.py:1050-1052 | Tuple order is transitive in both directions. |
| Sorting.AheadTotal | app.py:1050-1052 | Tuple order is total in both directions. |
| Listings.SortByOwner | app.py:1034-1052 | A permutation of the items. With a user, the user's items come first, and each group (the whole list without a user) is ordered by lowercase name. |
| Listings.SortByOwnerStable | app.py:1034-1052 | Items with the same owner group and lowercase name keep their input order. |
| Listings.SortByOwnerIdempotent | app.py:1034-1052 | Applying the sort twice gives the same list. |
| Listings.SortByOwnerExample | app.py:1034-1052 | The user's `b` and `a` come before another owner's `z`, alphabetically. |
| Listings.SortWarehouses | app.py:2571-2580 | A permutation in which the state priority never decreases (`RUNNING`, `STARTING`, `STOPPING`, `STOPPED`, `DELETED`, `DELETING`, then any other or missing state), with names in case-sensitive order within one priority. |
| Listings.RunningWarehousesFirst | app.py:2571-2580 | Every running warehouse precedes every other warehouse, and every stopped one follows all running, starting and stopping ones. |
| PyInt.ParseInt | app.py:1427-1429 | A result comes only from a well-formed decimal literal with surrounding whitespace ignored. Its value is the digits' value, negated after `-` and unchanged after `+`. |
| PyInt.ParseIntAcceptsExactly | app.py:1427-1429 | `int()` succeeds exactly on stripped strings that are well-formed digits, optionally after one `+` or `-`. |
| PyInt.NatString | app.py:1433-1437 | `str()` of a natural number is non-empty digits with no leading zero. |
| PyInt.NatStringValue | app.py:1433-1437 | The digits of `str(n)` spell `n`. |
| PyInt.ParseDecimalRoundTrip | app.py:1427-1437 | `int(str(n)) == n` for every integer. |
| PyInt.CanonicalDigitsRoundTrip | app.py:1427-1437 | For canonical digit strings, `str(int(s)) == s`. |
| PyInt.ParseIntExample | app.py:1427-1429 | `int(" +1_0 ")` is 10. |
| PyInt.ParseIntRejectsDoubleUnderscore | app.py:1427-1429 | `int("1__0")` raises `ValueError`. |
| Prompts.ShortName | app.py:1417 | The result has no dot and is a suffix of the full name, preceded by a dot unless it is the whole name. A dot-free name is its own short name. |
| Prompts.ShortNameAfterDot | app.py:1417 | The short name of `qualifier.name` is `name` for a dot-free `name`. |
| Prompts.ListingVersionCount | app.py:1425-1429 | `PromptVersionCount` parsed as an integer, or 1 when the tag is missing or unparseable. |
| Prompts.VersionList | app.py:1431-1437 | Exactly `max(count, 0)` entries, counting down from the count. |
| Prompts.VersionListCountsDown | app.py:1431-1437 | Entry `i` parses back to `count - i`, and no entry repeats. |
| Prompts.LatestVersion | app.py:1448 | For a positive count, the latest version parses back to the count. Otherwise it is `"1"`. |
| Prompts.LatestHeadsVersionList | app.py:1431-1448 | The latest version is the first entry of a non-empty version list. |
| Prompts.ListPrompt | app.py:1415-1450 | The entry keeps the full name and its short name. It has versions exactly when the count is positive, and then the latest version heads the list. |
| Prompts.ListPromptCountsDown | app.py:1425-1437 | Listed version `i` is the count minus `i`. |
| Prompts.ListPromptFromCount | app.py:1425-1448 | A tag `str(n)` with `n > 0` lists `n` versions, the latest being `str(n)`. |
| Prompts.ListPromptDefaultsToOne | app.py:1425-1448 | A missing or malformed tag lists the single version `"1"`. |
| Prompts.TemplateVersionCount | app.py:2016-2025 | The first `PromptVersionCount` tag decides: its value, with a missing value read as `"1"`, parsed, and 1 on a parse failure. With no such tag the count is 1. |
| Prompts.AliasMap | app.py:2027-2034 | An alias is mapped exactly when some entry with both an alias and a version names it. |
| Prompts.AliasMapLastWins | app.py:2027-2034 | The last usable entry for an alias decides its version. |
| Prompts.SelectVersion | app.py:2038-2060 | `champion`/`default` without a usable version is "alias not found" exactly when that alias is unmapped. A non-numeric version or mapped alias raises. An explicit non-zero version wins. No alias or `latest` loads the latest count, and so does a version of 0. |
| Prompts.UnknownAliasLoadsLatest | app.py:2040-2060 | An unmapped ordinary alias silently loads the latest version. |
| Prompts.MappedAliasLoadsItsVersion | app.py:2027-2050 | An alias loads the version its last entry recorded. |
| Prompts.ZeroVersionLoadsLatest | app.py:2059-2060 | Version `"0"` is falsy after parsing, so the latest version is loaded. |
| EnvVars.Snapshot | app.py:1364-1368 | The saved map has exactly the listed keys, each with the environment's value or absence. |
| EnvVars.Unset | app.py:1370-1377 | The listed keys are absent afterwards; all others are untouched. |
| EnvVars.Restore | app.py:1581-1588 | Every saved key gets its saved value back (set or deleted). Other keys keep their current values. |
| EnvVars.RestoreUndoes | app.py:1581-1588 | If the saved values are the originals and only saved keys changed, restoring yields the original environment. |
| EnvVars.RestoreSnapshot | app.py:1364-1588 | Restoring a snapshot undoes any changes confined to the snapshot's keys. |
| EnvVars.ClearedEnv | app.py:1370-1378 | After clearing, the host is set normalised, the other three managed variables are unset, and nothing else changes. |
| EnvVars.TokenAfterClear | app.py:1387 | The fallback token exists exactly when the resolver finds one in the cleared environment, and it never comes from `DATABRICKS_TOKEN`. |
| EnvVars.TokenAfterClearIgnoresEnvToken | app.py:1370-1387 | Whatever `DATABRICKS_TOKEN` held before clearing, the fallback token is the same. |
| EnvVars.PromptEnvSetup | app.py:1342-1392 | 401 exactly when neither a full service principal nor a user token is available, the token being resolved after the managed variables were cleared. The host is always set, normalised. Service principal credentials replace the token; otherwise the token is set and the client variables are cleared. Nothing outside the four managed keys changes. |
| EnvVars.PromptListingRestoresEnv | app.py:1364-1588 | Whatever the handler did inside the managed keys, the `finally` block restores the original environment. |
| EnvVars.TemplateEnvSetup | app.py:1943-1982 | The token is the service principal's OAuth token when one is configured, else the user token resolved after the managed variables were cleared. 401 exactly when that token is missing or empty. The host is set normalised, the token is set, and the client variables are cleared. Nothing else changes. |
| EnvVars.TemplateLoadRestoresEnv | app.py:1943-2105 | After the template handler's restore, the environment equals the original. |
| EnvVars.WorkerAuthEnv | app.py:3537-3554 | The host is set normalised. The token clears the client variables; without a token, the service principal's credentials clear the token variables. Nothing outside the worker's keys changes. |
| EnvVars.ApplyConfigVar | app.py:3562-3579 | A set value without a `{{secrets/` reference is written. The saved record gains the key only if it was not already saved, with the value before the write. |
| EnvVars.ApplyConfigVarsKeepsRecord | app.py:3562-3579 | Applying configuration variables keeps the saved record faithful to the original environment, and every change inside it. |
| EnvVars.ApplyConfigVarsLeavesOthers | app.py:3562-3579 | Keys that no applied variable names stay unchanged and unsaved. |
| EnvVars.ApplyConfigVarsLastWins | app.py:3562-3579 | The last applied variable for a key decides its value. |
| EnvVars.SecretReferenceSkipped | app.py:3569-3574 | A value containing `{{secrets/` changes nothing. |
| EnvVars.WorkerRestoresEnv | app.py:3515-3668 | After authentication setup and any configuration variables, the worker's `finally` block restores the original environment exactly. |
| Json.Lookup | app.py:3132-3169 | A key is found exactly when the object has it, and the result is that key's value. |
| Json.Get | app.py:3132-3169 | `dict.get(key)`: `None` for a missing key, otherwise the key's value. |
| Deployment.DictGet | app.py:3132-3169 | `.get(key, default)` succeeds exactly on a dictionary and returns the value or the default. Otherwise it raises `AttributeError`. |
| Deployment.Len | app.py:3153-3206 | `len()` succeeds exactly on strings, lists and dictionaries, and is 0 exactly when the value is falsy. |
| Deployment.Empty | app.py:3153-3166 | `not v or len(v) == 0` never raises for falsy values and is true exactly for falsy ones. |
| Deployment.RequirementFor | app.py:3169-3195 | A resource kind is listed exactly when its section is truthy, with its `len()` as count. |
| Deployment.Requirements | app.py:3169-3195 | Fails exactly when some truthy section has no length. Otherwise lists every required kind with its section's length, at most four entries. |
| Deployment.RequirementsAreRequiredKinds | app.py:3169-3195 | The list holds only the kinds whose section is truthy, each once, in the order vector search, Genie, database, functions. |
| Deployment.ModelErrors | app.py:3139-3146 | A missing model gives only "model required". A present model gives "name required" and "schema required" exactly for its missing fields. A non-dict model raises. |
| Deployment.AppChecks | app.py:3132-3160 | Reads the name, the endpoint name, the model's errors and the orchestration flag, failing exactly when a `.get` or `len()` raises. |
| Deployment.ResourceChecks | app.py:3163-3195 | Reads the LLM warning condition and the requirements, failing exactly when a `.get` or `len()` raises. |
| Deployment.Validate | app.py:3128-3206 | A report exactly for well-shaped configurations. It is valid exactly when there are no errors, carries the app name, and counts no agents exactly when `agents` is falsy. |
| Deployment.ValidateReportsExactly | app.py:3128-3170 | The report's errors are exactly the name, model, name-of-model, schema, agent and orchestration messages whose checks fail, each once and in the handler's order. The warnings are exactly the endpoint and LLM warnings whose checks fail. Nothing else appears in either list. |
| Deployment.ValidIffChecksPass | app.py:3128-3206 | `valid` holds exactly when the app has a name, the registered model has a name and a schema, there is at least one agent, and a supervisor or swarm is configured. |
| Deployment.NameError | app.py:3135-3136 | "name required" is reported exactly when the app name is falsy. |
| Deployment.ModelErrorsInReport | app.py:3139-3146 | The model messages appear exactly under their conditions. |
| Deployment.AgentError | app.py:3153-3155 | "agent required" is reported exactly when `agents` is falsy. |
| Deployment.OrchestrationError | app.py:3158-3160 | "orchestration required" is reported exactly when neither a supervisor nor a swarm is configured. |
| Deployment.ValidateWarnings | app.py:3149-3166 | The endpoint warning appears exactly when the endpoint name is falsy, and the LLM warning exactly when the `llms` section is. |
| Deployment.EndpointDefaultsToAppName | app.py:3205 | A missing endpoint name is reported as the app name. |
| Deployment.ValidateDeployment | app.py:3121-3226 | 400 exactly for a falsy `config`, 500 exactly when validation raises, otherwise the report. |
| Deployment.NullAgentsIsServerError | app.py:3153-3206 | `agents: null` passes the agent check but makes `len(agents)` in the report raise, so the answer is 500. |
| Deployment.MissingModelHasOneMessage | app.py:3139-3146 | A missing model gives only the "model required" message. |
| Credentials.TokenValue | app.py:3454 | The token value exists exactly when the resolver finds one, and it is the value found. |
| Deployment.QuickCredentials | app.py:3422-3466 | Every accepted credential type yields a non-empty token or a full service principal pair. Each type is rejected exactly when the source refuses it, with that branch's message. `manual_pat` fails on an empty PAT. `manual_sp` fails when either client field in the body is empty. `app` fails when either environment client variable is empty. Any other type, or none, fails only when there is no user token and no environment service principal. |
| Deployment.QuickPrecheck | app.py:3412-3482 | Every rejection is a 400. "No workspace" is answered exactly when the credentials pass and the resolved host is missing or empty. A start carries the resolved, non-empty host and exactly the credentials the credential type chose. A falsy `config` is answered with "config is required". Credential errors are reported before the host check. |
| Deployment.QuickCredentialSources | app.py:3429-3450 | `manual_pat` uses the PAT; `manual_sp` uses the client pair; `app` uses the environment's client pair. Any other type, or none, uses the user token, or the environment's client pair when there is no token. |
| Deployment.QuickDefaultsToObo | app.py:3452-3466 | Without one of the named credential types, a non-empty user token is used as it is. Without one, the environment's `DATABRICKS_CLIENT_ID` and `DATABRICKS_CLIENT_SECRET` are used, and the request is rejected exactly when either of them is missing or empty. |
| Jobs.NewJob | app.py:3484-3498 | A new job is `starting`, with three pending named steps, current step 0, and no error, result or completion time. |
| Jobs.BeginValidate | app.py:3503-3508 | Step 0 runs and is current. The job's status, cancellation flag and result are unchanged. |
| Jobs.FinishValidate | app.py:3581 | Step 0 reads completed, whether or not a cancellation came first. |
| Jobs.EnterCreate | app.py:3587-3594 | Stops exactly when cancelled. Otherwise the job is `creating_agent` on step 1, which runs, with step 0 untouched. |
| Jobs.EnterDeploy | app.py:3626-3635 | Stops exactly when cancelled. Otherwise step 1 is completed and the job is `deploying` on step 2, which runs. |
| Jobs.FinishDeploy | app.py:3644-3660 | Stops exactly when cancelled, even after a successful deployment. Otherwise the job completes with its result and completion time, and step 2 completes. |
| Jobs.Fail | app.py:3673-3691 | The job and its current step fail with the message, other steps are untouched, and the cancellation flag is neither consulted nor changed. |
| Jobs.Cancel | app.py:3769-3792 | Succeeds exactly for `starting`, `creating_agent` and `deploying`. The job is then flagged and `cancelled`, and its current step fails with "Cancelled by user". Otherwise it is refused with "Deployment cannot be cancelled". |
| Jobs.CancelOnce | app.py:3769-3792 | A cancelled job cannot be cancelled again. |
| Jobs.Run | app.py:3500-3691 | A worker run keeps the job's three named steps and a valid current step. An exception can only happen after one to four stages or in the `finally` block. |
| Jobs.Leave | app.py:3662-3691 | An exception in the `finally` block fails the job as it stands when the worker leaves; without one the job is left as it is. |
| Jobs.UninterruptedRunCompletes | app.py:3500-3660 | Without cancellation or exception, the job completes with all three steps completed and the result recorded. |
| Jobs.CompletedRunHasAllStepsCompleted | app.py:3500-3691 | Whatever the cancellation and the outcome, a job that ends `completed` has all three steps completed. |
| Jobs.CompletedOnlyWithAllSteps | app.py:3581-3660 | From any point of a run, validation, the deploy gate and the final gate leave a job `completed` only with every step completed. |
| Jobs.CancelledRunHasNoResult | app.py:3581-3660 | A cancellation before the last gate wins: the job ends `cancelled` without a result. |
| Jobs.UncancelledRaiseFails | app.py:3673-3691 | Without cancellation, an exception fails the job with its message and no result. |
| Jobs.FinallyRaiseFailsCompletedJob | app.py:3662-3691 | An exception in the `finally` block fails even a completed deployment: the job reads `failed` with its last step failed and keeps its result. |
| Jobs.FinallyRaiseAfterCancelFails | app.py:3620-3691 | For a cancellation at any point before the last gate, a `finally` block that then raises leaves the job `failed`, with the flag set and no result. |
| Jobs.CancelThenRaiseIsFailed | app.py:3673-3691 | An exception at any of the four stage points right after a cancellation at that point still makes the job `failed` with the exception's message, with the flag set. |
| Jobs.CancelDuringValidateShowsCompletedStep | app.py:3581-3594 | After a cancellation during validation, the job is `cancelled` but step 0 reads completed with the cancellation message. |
| Jobs.RunEndsSettled | app.py:3500-3792 | Every run ends `completed`, `failed` or `cancelled`, never in a cancellable status. |
| Jobs.Find | app.py:3722-3725 | Returns the first position holding the id, or none exactly when no job has it. |
| Jobs.Put | app.py:3485-3498 | Storing a job keeps ids unique, makes the job findable, and keeps every other job. |
| Jobs.StatusOf | app.py:3715-3734 | A snapshot exists exactly when a job with the id exists, and it is that job. |
| Jobs.ListJobs | app.py:3737-3750 | A permutation of the store with start times in non-increasing order. |
| Jobs.ListJobsStable | app.py:3737-3750 | Jobs with the same start time keep their insertion order. |
| Jobs.CancelRequest | app.py:3753-3792 | 404 exactly for an unknown id and 400 exactly for a job that is not in progress, with the store unchanged in both cases. On success the stored job is replaced in place by exactly its cancellation, and every other job is kept. |

## Left out

- OAuth login, callback, logout and status endpoints, the session cookie and the user-context endpoint: they are driven by the identity provider's HTTP exchange. Only the session's token and host enter the model, as request fields.
- All HTTP and SDK calls (the secrets API, the MLflow prompt registry, Unity Catalog and Genie listings, `create_agent`/`deploy_agent`, the proxied request). Each is a parameter: a secret-store function, an upstream reply, or an outcome of the worker.
- The catalog, schema, table, function, warehouse and prompt listing handlers, apart from the sorts and prompt helpers they apply. Their remaining work is SDK iteration and formatting.
- The chat endpoint's server-sent-event bridge and the LLM prompt-generation endpoints: streaming and string templating for an external model.
- YAML parsing and JSON-schema validation (`validate_schema`), which delegate to PyYAML, jsonschema and pydantic.
- Static files, logging, the version and GitHub configuration endpoints, `uuid`/`datetime` (ids and timestamps are opaque strings), the worker's temporary YAML file, and the monkey-patching of `DatabricksFunctionClient`.
- Threads and the lock: each lock-guarded block is one atomic step, and a worker run is explored with one cancellation request at each possible point. Further requests are refused once one has succeeded. Environment cross-talk between concurrent handlers is not modelled.
- Jobs.Fail: does not record `error_trace`, the traceback text. The completed `result`'s constant `message` field is also omitted.
- Deployment.Validate: every exception in the handler produces the same 500, so the checks are grouped by configuration section rather than kept in source order; the exception's message text is not modelled.
- Deployment.ValidateDeployment: the 500 answer does not carry the exception's message.
- Base.Lower: lowercases ASCII letters only; Python's full Unicode case mapping is not modelled.
- Listings.SortByOwner: item names and owners are strings. A `None` name, which raises in the no-user branch and reads as empty in the other, is not modelled.
- Listings.SortWarehouses: warehouse names and states are strings. A `None` name, whose comparison with a string raises in Python, is not modelled.
- Prompts.TemplateVersionCount: tag keys are strings and tag values optional strings. Other JSON types for tags, aliases and versions are not modelled.
- Variables.Resolve: `str()` of a truthy non-string scalar is the value itself, not its decimal text, and floats are not modelled.
- Backend.BackendProxy: the HTTP method and the forwarded JSON body are not modelled. The outbound URL and headers are stated in the plan.
- Proxy.ProxyDatabricks: the HTTP method and the forwarded JSON body are not modelled, and neither is the 30-second timeout. A timeout is one of the connection errors that the upstream parameter can return.
- Credentials.ResolveToken: a session field is present or absent; a session key holding `None`, which `get_databricks_token_with_source` would return as a `None` token with source `oauth`, is not modelled.
- Deployment.ValidateDeployment: its input is the request's `config` field. A body that is JSON `null` or not JSON makes `data.get` raise, which answers 500; that body-level case is not modelled.
- PyInt.ParseInt: accepts ASCII digits only; Python's `int()` also accepts other Unicode decimal digits.
- EnvVars.TemplateEnvSetup: the service principal's OAuth exchange is a parameter, and its non-200 answer, which the loader turns into its own 401, is not modelled.
- Jobs.Run: at most one exception per run; an exception in the `finally` block after another one, which replaces it, is modelled as the single later exception.
- JSON objects are modelled with unique keys, as Python's JSON parser leaves them (a repeated key keeps its last value); `Json.Lookup` therefore takes the only match.
- Deployment.QuickPrecheck: the request's `credentials` fields are optional strings. A `null` or non-object `credentials` value, or a `null` body, makes `deploy_quick` raise and answer 500 through its generic handler; a non-string `pat`, `client_id` or `client_secret` is passed on as it is. Neither case is modelled.

=== FILE: backend.dfy ===
/** The minimal backend (backend/main.py): its token endpoint and its API
    proxy, which know only the forwarded token, `X-Databricks-Host` and the
    environment. */
module Backend {
  import opened Base
  import opened Proxy

  /** The request headers this backend reads. */
  datatype BackendRequest = BackendRequest(
    forwardedToken: Option<string>,  // X-Forwarded-Access-Token
    databricksHost: Option<string>,  // X-Databricks-Host
    email: Option<string>,           // X-Forwarded-Email
    user: Option<string>)            // X-Forwarded-User

  /** The `source` strings `'header'` and `'env'`; `None` is no source. */
  datatype TokenOrigin = FromHeader | FromEnv

  /** The JSON body of `/api/auth/token`. */
  datatype AuthInfo = AuthInfo(
    token: Option<string>,
    host: Option<string>,
    email: Option<string>,
    user: Option<string>,
    source: Option<TokenOrigin>)

  /** `get_auth_token`: a non-empty forwarded token with source `header`,
      else whatever `DATABRICKS_TOKEN` holds with source `env` when that is
      non-empty; the host is `DATABRICKS_HOST` as is. */
  function GetAuthToken(req: BackendRequest, env: map<string, string>): (r: AuthInfo)
    ensures Truthy(req.forwardedToken) ==> r.token == req.forwardedToken && r.source == Some(FromHeader)
    ensures !Truthy(req.forwardedToken) ==> r.token == EnvGet(env, "DATABRICKS_TOKEN")
    ensures r.source == Some(FromEnv) <==> !Truthy(req.forwardedToken) && Truthy(EnvGet(env, "DATABRICKS_TOKEN"))
    ensures r.source.None? <==> !Truthy(r.token)
    ensures r.host == EnvGet(env, "DATABRICKS_HOST")
    ensures r.email == req.email && r.user == req.user
  {
    var token := if Truthy(req.forwardedToken) then req.forwardedToken else EnvGet(env, "DATABRICKS_TOKEN");
    var source := if Truthy(req.forwardedToken) then Some(FromHeader)
                  else if Truthy(token) then Some(FromEnv)
                  else None;
    AuthInfo(token, EnvGet(env, "DATABRICKS_HOST"), req.email, req.user, source)
  }

  /** An empty `DATABRICKS_TOKEN` is reported as the empty token with no source. */
  lemma EmptyEnvTokenHasNoSource(req: BackendRequest, env: map<string, string>)
    requires !Truthy(req.forwardedToken) && EnvGet(env, "DATABRICKS_TOKEN") == Some("")
    ensures GetAuthToken(req, env).token == Some("") && GetAuthToken(req, env).source.None?
  {
  }

  /** The token the proxy uses: the forwarded header if non-empty, else the
      environment's, if any. */
  function BackendToken(req: BackendRequest, env: map<string, string>): (r: Option<string>)
    ensures Truthy(req.forwardedToken) ==> r == req.forwardedToken
    ensures !Truthy(req.forwardedToken) ==> r == EnvGet(env, "DATABRICKS_TOKEN")
  {
    if Truthy(req.forwardedToken) then req.forwardedToken else EnvGet(env, "DATABRICKS_TOKEN")
  }

  /** The host the proxy uses: `X-Databricks-Host` if non-empty, else the
      environment's, if any. No scheme is added. */
  function BackendHost(req: BackendRequest, env: map<string, string>): (r: Option<string>)
    ensures Truthy(req.databricksHost) ==> r == req.databricksHost
    ensures !Truthy(req.databricksHost) ==> r == EnvGet(env, "DATABRICKS_HOST")
  {
    if Truthy(req.databricksHost) then req.databricksHost else EnvGet(env, "DATABRICKS_HOST")
  }

  /** The proxy's decision before any network traffic: 401 without a token,
      checked first, then 400 without a host, else the request to forward to
      the host stripped of trailing `/`. */
  datatype BackendPlan = NoToken | NoHost | ForwardTo(request: Outbound)

  function PlanBackendProxy(req: BackendRequest, env: map<string, string>, path: string, query: string): (r: BackendPlan)
    ensures r.NoToken? <==> !Truthy(req.forwardedToken) && !Truthy(EnvGet(env, "DATABRICKS_TOKEN"))
    ensures r.NoHost? <==> !r.NoToken? && !Truthy(req.databricksHost) && !Truthy(EnvGet(env, "DATABRICKS_HOST"))
    ensures r.ForwardTo? ==>
      && Truthy(BackendToken(req, env)) && Truthy(BackendHost(req, env))
      && r.request.authorization == "Bearer " + BackendToken(req, env).value
      && r.request.contentType == "application/json"
      && r.request.url == TargetUrl(RStripChar(BackendHost(req, env).value, '/'), path, query)
  {
    var token := BackendToken(req, env);
    if !Truthy(token) then NoToken
    else
      var host := BackendHost(req, env);
      if !Truthy(host) then NoHost
      else ForwardTo(Outbound(TargetUrl(RStripChar(host.value, '/'), path, query), "Bearer " + token.value, "application/json"))
  }

  /** Extra trailing slashes on the host do not change the target URL. */
  lemma {:induction false} HostTrailingSlashesIgnored(h: string, path: string, query: string)
    ensures TargetUrl(RStripChar(h + "/", '/'), path, query) == TargetUrl(RStripChar(h, '/'), path, query)
  {
    assert (h + "/")[..|h + "/"| - 1] == h;
  }

  /** The target URL keeps the host's own text: a host without a scheme gives
      a URL without one. */
  lemma NoSchemeAdded(req: BackendRequest, env: map<string, string>, path: string, query: string)
    requires PlanBackendProxy(req, env, path, query).ForwardTo?
    ensures var h := BackendHost(req, env).value;
      StartsWith(PlanBackendProxy(req, env, path, query).request.url, h[..|RStripChar(h, '/')|])
  {
    var h := BackendHost(req, env).value;
    var u := PlanBackendProxy(req, env, path, query).request.url;
    var t := RStripChar(h, '/');
    assert u[..|t|] == (t + "/" + path)[..|t|];
  }

  /** What the backend proxy answers. */
  datatype BackendResponse =
    | NotAuthorized401
    | BadRequest400
    | Passed(status: int, content: string, contentType: string)
    | Unreachable502(error: string)

  /** `proxy_databricks` of backend/main.py, with the upstream service as a
      parameter: no scope handling, the reply is passed through unchanged. */
  function BackendProxy(req: BackendRequest, env: map<string, string>, path: string, query: string,
                        upstream: Outbound -> Upstream): (r: BackendResponse)
    ensures r.NotAuthorized401? <==> PlanBackendProxy(req, env, path, query).NoToken?
    ensures r.BadRequest400? <==> PlanBackendProxy(req, env, path, query).NoHost?
    ensures PlanBackendProxy(req, env, path, query).ForwardTo? ==>
      var up := upstream(PlanBackendProxy(req, env, path, query).request);
      && (up.ConnectionError? <==> r.Unreachable502?)
      && (up.ConnectionError? ==> r.error == "Failed to connect to Databricks: " + up.message)
      && (up.Reply? ==> r == Passed(up.status, up.content, up.contentType.GetOr("application/json")))
  {
    match PlanBackendProxy(req, env, path, query)
    case NoToken => NotAuthorized401
    case NoHost => BadRequest400
    case ForwardTo(request) =>
      match upstream(request)
      case ConnectionError(m) => Unreachable502("Failed to connect to Databricks: " + m)
      case Reply(status, _, contentType, content) => Passed(status, content, contentType.GetOr("application/json"))
  }
}

=== FILE: base.dfy ===
/** Shared vocabulary for the model: optional values, failure-compatible
    results, and the handful of Python string operations the application
    relies on (`startswith`, `in`, `lower`, `strip`, `rstrip`). */
module Base {

  /** An optional value; `None` stands for Python's `None` or a missing key. */
  datatype Option<+T> = None | Some(value: T) {
    function GetOr(default: T): T {
      if Some? then value else default
    }
  }

  /** A value or an error, usable with `:-`. */
  datatype Result<+T, +E> = Ok(value: T) | Err(error: E) {
    predicate IsFailure() {
      Err?
    }

    function PropagateFailure<U>(): Result<U, E>
      requires Err?
    {
      Err(error)
    }

    function Extract(): T
      requires Ok?
    {
      value
    }
  }

  /** Python truthiness of an optional string: present and non-empty. */
  predicate Truthy(o: Option<string>) {
    o.Some? && o.value != ""
  }

  /** `os.environ.get(key)` over an environment modelled as a map. */
  function EnvGet(env: map<string, string>, key: string): Option<string> {
    if key in env then Some(env[key]) else None
  }

  /** `s.startswith(p)` */
  predicate StartsWith(s: string, p: string) {
    |p| <= |s| && s[..|p|] == p
  }

  /** `s.endswith(p)` */
  predicate EndsWith(s: string, p: string) {
    |p| <= |s| && s[|s| - |p|..] == p
  }

  /** `p` occurs in `s` starting at index `i`. */
  predicate OccursAt(s: string, p: string, i: int) {
    0 <= i && i + |p| <= |s| && s[i..i + |p|] == p
  }

  /** Python's substring test `p in s`. */
  predicate Contains(s: string, p: string)
    decreases |s|
  {
    StartsWith(s, p) || (|s| > 0 && Contains(s[1..], p))
  }

  /** The recursive substring test agrees with the positional definition. */
  lemma {:induction false} ContainsIffOccurs(s: string, p: string)
    ensures Contains(s, p) <==> exists i :: OccursAt(s, p, i)
    decreases |s|
  {
    if StartsWith(s, p) {
      assert OccursAt(s, p, 0);
    } else if |s| == 0 {
      assert |p| > 0;
    } else {
      ContainsIffOccurs(s[1..], p);
      forall i | OccursAt(s, p, i)
        ensures OccursAt(s[1..], p, i - 1)
      {
        assert s[1..][i - 1..i - 1 + |p|] == s[i..i + |p|];
      }
      forall j | OccursAt(s[1..], p, j)
        ensures OccursAt(s, p, j + 1)
      {
        assert s[1..][j..j + |p|] == s[j + 1..j + 1 + |p|];
      }
    }
  }

  /** Python's `str.lower()` restricted to ASCII letters. */
  function LowerChar(c: char): char {
    if 'A' <= c <= 'Z' then (c as int + 32) as char else c
  }

  function Lower(s: string): (r: string)
    ensures |r| == |s|
    ensures forall i :: 0 <= i < |s| ==> r[i] == LowerChar(s[i])
  {
    if |s| == 0 then "" else [LowerChar(s[0])] + Lower(s[1..])
  }

  /** The characters Python's `str.isspace()` accepts, which `str.strip()` removes. */
  predicate IsSpace(c: char) {
    || c == ' '
    || ('\t' <= c <= '\r')
    || ('\U{1c}' <= c <= '\U{1f}')
    || c == '\U{85}' || c == '\U{a0}' || c == '\U{1680}'
    || ('\U{2000}' <= c <= '\U{200a}')
    || c == '\U{2028}' || c == '\U{2029}' || c == '\U{202f}'
    || c == '\U{205f}' || c == '\U{3000}'
  }

  /** `s.lstrip()`: drops leading whitespace and nothing else. */
  function LStrip(s: string): (r: string)
    ensures |r| <= |s| && r == s[|s| - |r|..]
    ensures |r| > 0 ==> !IsSpace(r[0])
    ensures forall i :: 0 <= i < |s| - |r| ==> IsSpace(s[i])
  {
    if |s| > 0 && IsSpace(s[0]) then LStrip(s[1..]) else s
  }

  /** `s.rstrip()`: drops trailing whitespace and nothing else. */
  function RStrip(s: string): (r: string)
    ensures |r| <= |s| && r == s[..|r|]
    ensures |r| > 0 ==> !IsSpace(r[|r| - 1])
    ensures forall i :: |r| <= i < |s| ==> IsSpace(s[i])
  {
    if |s| > 0 && IsSpace(s[|s| - 1]) then RStrip(s[..|s| - 1]) else s
  }

  /** `s.strip()` */
  function Strip(s: string): string {
    RStrip(LStrip(s))
  }

  /** `strip()` leaves a string alone when it neither starts nor ends in whitespace. */
  lemma StripUnchanged(s: string)
    requires |s| > 0 && !IsSpace(s[0]) && !IsSpace(s[|s| - 1])
    ensures Strip(s) == s
  {
    assert LStrip(s) == s;
  }

  /** `s.rstrip(c)` for a single character `c`: drops every trailing `c`. */
  function RStripChar(s: string, c: char): (r: string)
    ensures |r| <= |s| && r == s[..|r|]
    ensures |r| > 0 ==> r[|r| - 1] != c
    ensures forall i :: |r| <= i < |s| ==> s[i] == c
  {
    if |s| > 0 && s[|s| - 1] == c then RStripChar(s[..|s| - 1], c) else s
  }
}

=== FILE: credentials.dfy ===
/** Where the application finds its Databricks token and workspace host
    (`get_databricks_token_with_source`, `get_databricks_host_with_source`),
    and how the debug endpoint masks credentials before showing them. */
module Credentials {
  import opened Base
  import opened Hosts

  /** The parts of an incoming request the resolvers look at. A session field
      is `Some` exactly when its key is in the session, whatever its value.
      Header lookup is case-insensitive, so the retry with the lower-case
      `x-forwarded-access-token` name reads the same field. */
  datatype Request = Request(
    sessionToken: Option<string>,    // session['access_token']
    sessionHost: Option<string>,     // session['databricks_host']
    authorization: Option<string>,   // Authorization header
    forwardedToken: Option<string>,  // X-Forwarded-Access-Token header
    databricksHost: Option<string>,  // X-Databricks-Host header
    forwardedHost: Option<string>)   // X-Forwarded-Host header

  /** What the process offers besides the request: the SDK configuration's
      token and host (`None` when unset or when reading it failed) and the
      environment. */
  datatype Ambient = Ambient(sdkToken: Option<string>, sdkHost: Option<string>, env: map<string, string>)

  /** The `source` strings `'oauth'`, `'manual'`, `'obo'`, `'sdk'`, `'env'`. */
  datatype TokenSource = OAuth | Manual | Obo | Sdk | Env

  /** The host `source` strings `'oauth'`, `'header'`, `'sdk'`, `'env'`. */
  datatype HostSource = HostOAuth | Header | HostSdk | HostEnv

  /** A resolver's `(value, source)` pair; `NotFound` is `(None, None)`. */
  datatype Found<S> = Found(value: string, source: S) | NotFound

  const BearerPrefix := "Bearer "

  /** `auth_header[7:]` when the header starts with `Bearer `. */
  function BearerToken(authorization: Option<string>): (r: Option<string>)
    ensures r.Some? <==> authorization.Some? && StartsWith(authorization.value, BearerPrefix)
    ensures r.Some? ==> authorization.value == BearerPrefix + r.value
  {
    if authorization.Some? && StartsWith(authorization.value, BearerPrefix)
    then Some(authorization.value[|BearerPrefix|..])
    else None
  }

  /** A value that only counts when truthy. */
  function IfTruthy(o: Option<string>): (r: Option<string>)
    ensures r.Some? <==> Truthy(o)
    ensures r.Some? ==> r == o
  {
    if Truthy(o) then o else None
  }

  /** What each token source would contribute on its own. */
  function TokenOffer(req: Request, amb: Ambient, s: TokenSource): Option<string> {
    match s
    case OAuth => req.sessionToken
    case Manual => BearerToken(req.authorization)
    case Obo => IfTruthy(req.forwardedToken)
    case Sdk => IfTruthy(amb.sdkToken)
    case Env => IfTruthy(EnvGet(amb.env, "DATABRICKS_TOKEN"))
  }

  /** The documented priority: session, Bearer header, forwarded token, SDK, env. */
  function TokenRank(s: TokenSource): nat {
    match s
    case OAuth => 0
    case Manual => 1
    case Obo => 2
    case Sdk => 3
    case Env => 4
  }

  /** `get_databricks_token_with_source`: the offer of the highest-priority
      source that has one, or `NotFound` when none does. */
  function ResolveToken(req: Request, amb: Ambient): (r: Found<TokenSource>)
    ensures r.NotFound? <==> forall s :: TokenOffer(req, amb, s).None?
    ensures r.Found? ==> TokenOffer(req, amb, r.source) == Some(r.value)
    ensures r.Found? ==> forall s :: TokenRank(s) < TokenRank(r.source) ==> TokenOffer(req, amb, s).None?
  {
    if req.sessionToken.Some? then
      assert TokenOffer(req, amb, OAuth).Some?;
      Found(req.sessionToken.value, OAuth)
    else if BearerToken(req.authorization).Some? then
      assert TokenOffer(req, amb, Manual).Some?;
      Found(BearerToken(req.authorization).value, Manual)
    else if Truthy(req.forwardedToken) then
      assert TokenOffer(req, amb, Obo).Some?;
      Found(req.forwardedToken.value, Obo)
    else if Truthy(amb.sdkToken) then
      assert TokenOffer(req, amb, Sdk).Some?;
      Found(amb.sdkToken.value, Sdk)
    else if Truthy(EnvGet(amb.env, "DATABRICKS_TOKEN")) then
      assert TokenOffer(req, amb, Env).Some?;
      Found(amb.env["DATABRICKS_TOKEN"], Env)
    else NotFound
  }

  /** The resolved token as `get_databricks_token_with_source` returns it. */
  function TokenValue(req: Request, amb: Ambient): (r: Option<string>)
    ensures r.Some? <==> ResolveToken(req, amb).Found?
    ensures r.Some? ==> r.value == ResolveToken(req, amb).value
  {
    match ResolveToken(req, amb)
    case Found(v, _) => Some(v)
    case NotFound => None
  }

  /** A session token is used whenever its key is present, even when empty. */
  lemma SessionTokenWinsEvenIfEmpty(req: Request, amb: Ambient)
    requires req.sessionToken == Some("")
    ensures ResolveToken(req, amb) == Found("", OAuth)
  {
  }

  /** A bare `Bearer ` header yields the empty token from the `manual` source. */
  lemma EmptyBearerIsManual(req: Request, amb: Ambient)
    requires req.sessionToken.None? && req.authorization == Some("Bearer ")
    ensures ResolveToken(req, amb) == Found("", Manual)
  {
    assert BearerToken(req.authorization) == Some("");
  }

  /** Empty forwarded, SDK and environment tokens fall through to `NotFound`. */
  lemma EmptyTokensFallThrough(req: Request, amb: Ambient)
    requires req.sessionToken.None? && req.authorization.None?
    requires req.forwardedToken == Some("") && amb.sdkToken == Some("")
    requires EnvGet(amb.env, "DATABRICKS_TOKEN") == Some("")
    ensures ResolveToken(req, amb).NotFound?
  {
  }

  /** Only the sources up to the winning one matter: two situations whose
      offers agree there resolve to the same token. */
  lemma {:induction false} ResolveTokenDependsOnlyOnWinner(req: Request, amb: Ambient, req': Request, amb': Ambient)
    requires ResolveToken(req, amb).Found?
    requires forall s :: TokenRank(s) <= TokenRank(ResolveToken(req, amb).source) ==>
      TokenOffer(req, amb, s) == TokenOffer(req', amb', s)
    ensures ResolveToken(req', amb') == ResolveToken(req, amb)
  {
    var r := ResolveToken(req, amb);
    assert TokenOffer(req', amb', r.source) == Some(r.value);
  }

  /** What each host source would contribute on its own. Header, SDK and
      environment hosts are normalised; the session host is taken as stored. */
  function HostOffer(req: Request, amb: Ambient, s: HostSource): Option<string> {
    match s
    case HostOAuth => req.sessionHost
    case Header => if Truthy(req.databricksHost) then Some(NormalizeHost(req.databricksHost.value)) else None
    case HostSdk => if Truthy(amb.sdkHost) then Some(NormalizeHost(amb.sdkHost.value)) else None
    case HostEnv =>
      var e := EnvGet(amb.env, "DATABRICKS_HOST");
      if Truthy(e) then Some(NormalizeHost(e.value)) else None
  }

  /** The documented priority: session, `X-Databricks-Host`, SDK, env. */
  function HostRank(s: HostSource): nat {
    match s
    case HostOAuth => 0
    case Header => 1
    case HostSdk => 2
    case HostEnv => 3
  }

  /** `get_databricks_host_with_source`: the offer of the highest-priority
      source that has one. Every host not taken from the session carries a
      scheme. */
  function ResolveHost(req: Request, amb: Ambient): (r: Found<HostSource>)
    ensures r.NotFound? <==> forall s :: HostOffer(req, amb, s).None?
    ensures r.Found? ==> HostOffer(req, amb, r.source) == Some(r.value)
    ensures r.Found? ==> forall s :: HostRank(s) < HostRank(r.source) ==> HostOffer(req, amb, s).None?
    ensures r.Found? && r.source != HostOAuth ==> HasScheme(r.value)
  {
    if req.sessionHost.Some? then
      assert HostOffer(req, amb, HostOAuth).Some?;
      Found(req.sessionHost.value, HostOAuth)
    else if Truthy(req.databricksHost) then
      assert HostOffer(req, amb, Header).Some?;
      Found(NormalizeHost(req.databricksHost.value), Header)
    else if Truthy(amb.sdkHost) then
      assert HostOffer(req, amb, HostSdk).Some?;
      Found(NormalizeHost(amb.sdkHost.value), HostSdk)
    else if Truthy(EnvGet(amb.env, "DATABRICKS_HOST")) then
      assert HostOffer(req, amb, HostEnv).Some?;
      Found(NormalizeHost(amb.env["DATABRICKS_HOST"]), HostEnv)
    else NotFound
  }

  /** `X-Forwarded-Host` names the app, not the workspace, and is never read. */
  lemma ResolveHostIgnoresForwardedHost(req: Request, amb: Ambient, fh: Option<string>)
    ensures ResolveHost(req.(forwardedHost := fh), amb) == ResolveHost(req, amb)
  {
  }

  /** Only the sources up to the winning one matter for the host either. */
  lemma {:induction false} ResolveHostDependsOnlyOnWinner(req: Request, amb: Ambient, req': Request, amb': Ambient)
    requires ResolveHost(req, amb).Found?
    requires forall s :: HostRank(s) <= HostRank(ResolveHost(req, amb).source) ==>
      HostOffer(req, amb, s) == HostOffer(req', amb', s)
    ensures ResolveHost(req', amb') == ResolveHost(req, amb)
  {
    var r := ResolveHost(req, amb);
    assert HostOffer(req', amb', r.source) == Some(r.value);
  }

  /** How the debug endpoint shows an environment variable: absent or empty
      values as `None`; keys naming a token or secret as `***` plus at most
      the last four characters; client ids cut to eight characters plus `...`;
      anything else verbatim. */
  function MaskEnvValue(key: string, value: Option<string>): (r: Option<string>)
    ensures r.None? <==> !Truthy(value)
    ensures r.Some? && (Contains(key, "TOKEN") || Contains(key, "SECRET")) ==>
      StartsWith(r.value, "***") && |r.value| <= 7 && EndsWith(value.value, r.value[3..])
      && (|value.value| > 4 <==> |r.value| == 7)
    ensures r.Some? && (Contains(key, "TOKEN") || Contains(key, "SECRET")) ==>
      (|value.value| > 4 ==> r.value == "***" + value.value[|value.value| - 4..])
      && (|value.value| <= 4 ==> r.value == "***")
    ensures r.Some? && !Contains(key, "TOKEN") && !Contains(key, "SECRET") && Contains(key, "CLIENT_ID") ==>
      |r.value| <= 11 && (|value.value| > 8 ==> |r.value| == 11 && StartsWith(value.value, r.value[..8]))
      && (|value.value| > 8 ==> r.value == value.value[..8] + "...")
      && (|value.value| <= 8 ==> r == value)
    ensures r.Some? && !Contains(key, "TOKEN") && !Contains(key, "SECRET") && !Contains(key, "CLIENT_ID") ==>
      r == value
  {
    if !Truthy(value) then None
    else
      var v := value.value;
      if Contains(key, "TOKEN") || Contains(key, "SECRET") then
        Some(if |v| > 4 then "***" + v[|v| - 4..] else "***")
      else if Contains(key, "CLIENT_ID") then
        Some(if |v| > 8 then v[..8] + "..." else v)
      else value
  }

  /** How the debug endpoint shows a request header: names containing `Token`
      get the same tail-only mask as secret environment variables. */
  function MaskHeaderValue(name: string, value: Option<string>): (r: Option<string>)
    ensures r.None? <==> !Truthy(value)
    ensures r.Some? && Contains(name, "Token") ==>
      StartsWith(r.value, "***") && |r.value| <= 7 && EndsWith(value.value, r.value[3..])
      && (|value.value| > 4 ==> r.value == "***" + value.value[|value.value| - 4..])
      && (|value.value| <= 4 ==> r.value == "***")
    ensures r.Some? && !Contains(name, "Token") ==> r == value
  {
    if !Truthy(value) then None
    else if Contains(name, "Token") then
      var v := value.value;
      Some(if |v| > 4 then "***" + v[|v| - 4..] else "***")
    else value
  }

  /** A secret longer than seven characters is never shown in full. */
  lemma MaskedSecretHidesLongValues(key: string, v: string)
    requires Contains(key, "SECRET") && |v| > 7
    ensures MaskEnvValue(key, Some(v)).value != v
  {
  }

  /** Masking is idempotent: a masked value shows the same when masked again,
      so the mask keeps nothing of the value that a second pass would strip. */
  lemma MaskEnvIdempotent(key: string, value: Option<string>)
    ensures MaskEnvValue(key, MaskEnvValue(key, value)) == MaskEnvValue(key, value)
  {
    if Truthy(value) {
      var v := value.value;
      var m := MaskEnvValue(key, value).value;
      if Contains(key, "TOKEN") || Contains(key, "SECRET") {
        if |v| > 4 {
          assert m[|m| - 4..] == v[|v| - 4..];
        }
      } else if Contains(key, "CLIENT_ID") {
        if |v| > 8 {
          assert m[..8] == v[..8];
        }
      }
    }
  }

  /** A header whose name contains `Token` is masked exactly like an
      environment variable whose key contains `TOKEN`. */
  lemma HeaderMaskMatchesEnvMask(name: string, key: string, value: Option<string>)
    requires Contains(name, "Token") && Contains(key, "TOKEN")
    ensures MaskHeaderValue(name, value) == MaskEnvValue(key, value)
  {
  }
}

=== FILE: deployment.dfy ===
/** The deployment endpoints' checks before any work starts: the validation
    report of `/api/deploy/validate` and the credential and host checks of
    `/api/deploy/quick`. */
module Deployment {
  import opened Base
  import opened Json
  import opened Credentials

  const EmptyDict: Value := Object([])

  /** `d.get(key, default)`; a value that is not a dict has no `get`, which
      raises. */
  function DictGet(d: Value, key: string, default: Value): (r: Result<Value, string>)
    ensures r.Ok? <==> d.Object?
    ensures d.Object? && !HasKey(d.entries, key) ==> r.value == default
    ensures d.Object? && HasKey(d.entries, key) ==>
      exists i :: 0 <= i < |d.entries| && d.entries[i] == Entry(key, r.value)
  {
    if d.Object? then Ok(Lookup(d.entries, key).GetOr(default)) else Err("AttributeError")
  }

  /** A value `len()` accepts. */
  predicate Sized(v: Value) {
    v.Str? || v.List? || v.Object?
  }

  /** `len(v)`; `None`, booleans and numbers have no length, which raises. */
  function Len(v: Value): (r: Result<nat, string>)
    ensures r.Ok? <==> Sized(v)
    ensures r.Ok? ==> (r.value == 0 <==> !IsTruthy(v))
  {
    match v
    case Str(s) => Ok(|s|)
    case List(items) => Ok(|items|)
    case Object(entries) => Ok(|entries|)
    case _ => Err("TypeError")
  }

  /** `not v or len(v) == 0`: raises for a truthy value without a length. */
  function Empty(v: Value): (r: Result<bool, string>)
    ensures r.Ok? <==> !IsTruthy(v) || Sized(v)
    ensures r.Ok? ==> (r.value <==> !IsTruthy(v))
  {
    if !IsTruthy(v) then Ok(true)
    else
      var n :- Len(v);
      Ok(n == 0)
  }

  /** `d.get(key, default)` read where `d` is known to be a dict (and `default`
      otherwise), for stating what the report is about. */
  function At(d: Value, key: string, default: Value): Value {
    if d.Object? then Lookup(d.entries, key).GetOr(default) else default
  }

  function AppOf(config: Value): Value { At(config, "app", EmptyDict) }
  function ModelOf(config: Value): Value { At(AppOf(config), "registered_model", Null) }
  function AgentsOf(config: Value): Value { At(config, "agents", EmptyDict) }
  function OrchestrationOf(config: Value): Value { At(AppOf(config), "orchestration", EmptyDict) }
  function ResourcesOf(config: Value): Value { At(config, "resources", EmptyDict) }

  /** The resource kinds that add a requirement, with their `type` strings. */
  const RequirementKinds: seq<(string, string)> :=
    [("vector_stores", "vector_search"), ("genie_rooms", "genie"), ("databases", "database"), ("functions", "functions")]

  /** One entry of `requirements`. */
  datatype Requirement = Requirement(kind: string, count: nat)

  /** The report's fields other than the fixed deployment options. */
  datatype Report = Report(
    valid: bool,
    errors: seq<string>,
    warnings: seq<string>,
    requirements: seq<Requirement>,
    appName: Value,
    endpointName: Value,
    agentCount: nat)

  const NameRequired := "app.name is required"
  const ModelRequired := "app.registered_model is required for deployment"
  const ModelNameRequired := "app.registered_model.name is required"
  const ModelSchemaRequired := "app.registered_model.schema is required"
  const AgentRequired := "At least one agent is required"
  const OrchestrationRequired := "Orchestration pattern (supervisor or swarm) is required"
  const EndpointWarning := "app.endpoint_name not set - will default to app name"
  const LlmWarning := "No LLMs configured in resources"

  /** The `requirements` entry for resource kind `j`, if its value is truthy. */
  function RequirementFor(resources: Value, j: nat): (r: Result<seq<Requirement>, string>)
    requires resources.Object? && j < |RequirementKinds|
    ensures var v := At(resources, RequirementKinds[j].0, Null);
      && (r.Ok? <==> !IsTruthy(v) || Sized(v))
      && (r.Ok? && IsTruthy(v) ==> r.value == [Requirement(RequirementKinds[j].1, Len(v).value)])
      && (r.Ok? && !IsTruthy(v) ==> r.value == [])
  {
    var v := At(resources, RequirementKinds[j].0, Null);
    if !IsTruthy(v) then Ok([])
    else
      var n :- Len(v);
      Ok([Requirement(RequirementKinds[j].1, n)])
  }

  /** A resource kind whose value is truthy and has a length. */
  predicate Required(resources: Value, j: int)
    requires 0 <= j < |RequirementKinds|
  {
    var v := At(resources, RequirementKinds[j].0, Null);
    IsTruthy(v) && Sized(v)
  }

  /** The entries for the resource kinds from `j` on that are required, in
      the order of `RequirementKinds`. */
  function RequiredFrom(resources: Value, j: nat): seq<Requirement>
    requires j <= |RequirementKinds|
    decreases |RequirementKinds| - j
  {
    if j == |RequirementKinds| then []
    else
      var head := if Required(resources, j)
        then [Requirement(RequirementKinds[j].1, Len(At(resources, RequirementKinds[j].0, Null)).value)]
        else [];
      head + RequiredFrom(resources, j + 1)
  }

  /** `requirements`: one entry per resource kind with a truthy value, in
      the order vector search, Genie, database, functions, each counting the
      value's length. */
  function Requirements(resources: Value): (r: Result<seq<Requirement>, string>)
    requires resources.Object?
    ensures r.Ok? <==> forall j :: 0 <= j < |RequirementKinds| ==>
      var v := At(resources, RequirementKinds[j].0, Null);
      !IsTruthy(v) || Sized(v)
    ensures r.Ok? ==> forall j :: 0 <= j < |RequirementKinds| && Required(resources, j) ==>
      Requirement(RequirementKinds[j].1, Len(At(resources, RequirementKinds[j].0, Null)).value) in r.value
    ensures r.Ok? ==> |r.value| <= |RequirementKinds|
  {
    var a :- RequirementFor(resources, 0);
    var b :- RequirementFor(resources, 1);
    var c :- RequirementFor(resources, 2);
    var d :- RequirementFor(resources, 3);
    Ok(a + b + c + d)
  }

  /** `requirements` holds exactly the required resource kinds, each once,
      in the order of `RequirementKinds`. */
  lemma RequirementsAreRequiredKinds(resources: Value)
    requires resources.Object? && Requirements(resources).Ok?
    ensures Requirements(resources).value == RequiredFrom(resources, 0)
  {
    var a := RequirementFor(resources, 0).value;
    var b := RequirementFor(resources, 1).value;
    var c := RequirementFor(resources, 2).value;
    var d := RequirementFor(resources, 3).value;
    assert RequiredFrom(resources, 4) == [];
    assert RequiredFrom(resources, 3) == d;
    assert RequiredFrom(resources, 2) == c + d;
    assert RequiredFrom(resources, 1) == b + (c + d);
    assert RequiredFrom(resources, 0) == a + (b + (c + d));
  }

  /** The `registered_model` checks: one message for a missing model, else
      one each for its missing name and schema. */
  function ModelErrors(model: Value): (r: Result<seq<string>, string>)
    ensures r.Ok? <==> !IsTruthy(model) || model.Object?
    ensures r.Ok? ==> (ModelRequired in r.value <==> !IsTruthy(model))
    ensures r.Ok? ==> (ModelNameRequired in r.value <==> IsTruthy(model) && !IsTruthy(At(model, "name", Null)))
    ensures r.Ok? ==> (ModelSchemaRequired in r.value <==> IsTruthy(model) && !IsTruthy(At(model, "schema", Null)))
    ensures r.Ok? ==> forall m :: m in r.value ==> m in {ModelRequired, ModelNameRequired, ModelSchemaRequired}
  {
    if !IsTruthy(model) then Ok([ModelRequired])
    else
      var modelName :- DictGet(model, "name", Null);
      var schema := At(model, "schema", Null);
      Ok((if !IsTruthy(modelName) then [ModelNameRequired] else [])
         + (if !IsTruthy(schema) then [ModelSchemaRequired] else []))
  }

  /** What the checks read from the `app` section. */
  datatype AppFacts = AppFacts(name: Value, modelErrors: seq<string>, endpoint: Value, orchestrated: bool)

  function AppChecks(app: Value): (r: Result<AppFacts, string>)
    ensures r.Ok? <==>
      && app.Object?
      && ModelErrors(At(app, "registered_model", Null)).Ok?
      && At(app, "orchestration", EmptyDict).Object?
    ensures r.Ok? ==> r.value.name == At(app, "name", Null) && r.value.endpoint == At(app, "endpoint_name", Null)
    ensures r.Ok? ==> r.value.modelErrors == ModelErrors(At(app, "registered_model", Null)).value
    ensures r.Ok? ==> (r.value.orchestrated <==>
      var orchestration := At(app, "orchestration", EmptyDict);
      IsTruthy(At(orchestration, "supervisor", Null)) || IsTruthy(At(orchestration, "swarm", Null)))
  {
    var name :- DictGet(app, "name", Null);
    var modelErrors :- ModelErrors(At(app, "registered_model", Null));
    var endpoint := At(app, "endpoint_name", Null);
    var orchestration := At(app, "orchestration", EmptyDict);
    var supervisor :- DictGet(orchestration, "supervisor", Null);
    var swarm := At(orchestration, "swarm", Null);
    Ok(AppFacts(name, modelErrors, endpoint, IsTruthy(supervisor) || IsTruthy(swarm)))
  }

  /** What the checks read from the `resources` section. */
  datatype ResourceFacts = ResourceFacts(noLlms: bool, requirements: seq<Requirement>)

  function ResourceChecks(resources: Value): (r: Result<ResourceFacts, string>)
    ensures r.Ok? <==>
      && resources.Object?
      && Empty(At(resources, "llms", EmptyDict)).Ok?
      && Requirements(resources).Ok?
    ensures r.Ok? ==> (r.value.noLlms <==> !IsTruthy(At(resources, "llms", EmptyDict)))
    ensures r.Ok? ==> r.value.requirements == Requirements(resources).value
  {
    var llms :- DictGet(resources, "llms", EmptyDict);
    var noLlms :- Empty(llms);
    var requirements :- Requirements(resources);
    Ok(ResourceFacts(noLlms, requirements))
  }

  /** Every lookup and `len()` the validation makes succeeds. */
  predicate WellShaped(config: Value) {
    && config.Object?
    && AppChecks(AppOf(config)).Ok?
    && Sized(AgentsOf(config))
    && ResourceChecks(ResourcesOf(config)).Ok?
  }

  /** The validation proper, for a truthy `config`: an `Err` is an exception,
      which the endpoint answers with 500. Every exception gets the same
      answer, so the checks are grouped by section rather than in the order
      the handler makes them. */
  function Validate(config: Value): (r: Result<Report, string>)
    ensures r.Ok? <==> WellShaped(config)
    ensures r.Ok? ==> (r.value.valid <==> |r.value.errors| == 0)
    ensures r.Ok? ==> r.value.appName == At(AppOf(config), "name", Null)
    ensures r.Ok? ==> (r.value.agentCount == 0 <==> !IsTruthy(AgentsOf(config)))
  {
    var app :- DictGet(config, "app", EmptyDict);
    var facts :- AppChecks(app);
    var agents := At(config, "agents", EmptyDict);
    var noAgents :- Empty(agents);
    var resources := At(config, "resources", EmptyDict);
    var resourceFacts :- ResourceChecks(resources);
    var agentCount :- Len(agents);
    var errors :=
      (if !IsTruthy(facts.name) then [NameRequired] else [])
      + facts.modelErrors
      + (if noAgents then [AgentRequired] else [])
      + (if !facts.orchestrated then [OrchestrationRequired] else []);
    var warnings :=
      (if !IsTruthy(facts.endpoint) then [EndpointWarning] else [])
      + (if resourceFacts.noLlms then [LlmWarning] else []);
    Ok(Report(|errors| == 0, errors, warnings, resourceFacts.requirements, facts.name,
              if IsTruthy(facts.endpoint) then facts.endpoint else facts.name, agentCount))
  }

  /** The app-name message appears exactly when the name is missing or empty. */
  lemma NameError(config: Value)
    requires Validate(config).Ok?
    ensures NameRequired in Validate(config).value.errors <==> !IsTruthy(At(AppOf(config), "name", Null))
  {
    var m := ModelErrors(ModelOf(config)).value;
    assert NameRequired !in m;
  }

  /** The model messages appear exactly as `ModelErrors` says. */
  lemma ModelErrorsInReport(config: Value)
    requires Validate(config).Ok?
    ensures ModelRequired in Validate(config).value.errors <==> !IsTruthy(ModelOf(config))
    ensures ModelNameRequired in Validate(config).value.errors <==>
      IsTruthy(ModelOf(config)) && !IsTruthy(At(ModelOf(config), "name", Null))
    ensures ModelSchemaRequired in Validate(config).value.errors <==>
      IsTruthy(ModelOf(config)) && !IsTruthy(At(ModelOf(config), "schema", Null))
  {
  }

  /** The agent message appears exactly when the agents are missing or empty. */
  lemma AgentError(config: Value)
    requires Validate(config).Ok?
    ensures AgentRequired in Validate(config).value.errors <==> !IsTruthy(AgentsOf(config))
  {
    var facts := AppChecks(AppOf(config)).value;
    assert AgentRequired !in facts.modelErrors;
  }

  /** The orchestration message appears exactly when neither a supervisor nor
      a swarm is configured. */
  lemma OrchestrationError(config: Value)
    requires Validate(config).Ok?
    ensures OrchestrationRequired in Validate(config).value.errors <==>
      !IsTruthy(At(OrchestrationOf(config), "supervisor", Null)) && !IsTruthy(At(OrchestrationOf(config), "swarm", Null))
  {
    var facts := AppChecks(AppOf(config)).value;
    assert OrchestrationRequired !in facts.modelErrors;
  }

  /** The warnings, which never make the report invalid. */
  lemma ValidateWarnings(config: Value)
    requires Validate(config).Ok?
    ensures EndpointWarning in Validate(config).value.warnings <==> !IsTruthy(At(AppOf(config), "endpoint_name", Null))
    ensures LlmWarning in Validate(config).value.warnings <==> !IsTruthy(At(ResourcesOf(config), "llms", EmptyDict))
  {
  }

  /** The endpoint name defaults to the app name. */
  lemma EndpointDefaultsToAppName(config: Value)
    requires Validate(config).Ok?
    ensures Validate(config).value.endpointName
      == if IsTruthy(At(AppOf(config), "endpoint_name", Null)) then At(AppOf(config), "endpoint_name", Null)
         else At(AppOf(config), "name", Null)
  {
  }

  /** The errors the handler reports, check by check in the order it makes
      them, read straight from the configuration. */
  function ExpectedErrors(config: Value): seq<string> {
    var model := ModelOf(config);
    var orchestration := OrchestrationOf(config);
    (if !IsTruthy(At(AppOf(config), "name", Null)) then [NameRequired] else [])
    + (if !IsTruthy(model) then [ModelRequired]
       else ((if !IsTruthy(At(model, "name", Null)) then [ModelNameRequired] else [])
             + (if !IsTruthy(At(model, "schema", Null)) then [ModelSchemaRequired] else [])))
    + (if !IsTruthy(AgentsOf(config)) then [AgentRequired] else [])
    + (if !IsTruthy(At(orchestration, "supervisor", Null)) && !IsTruthy(At(orchestration, "swarm", Null))
       then [OrchestrationRequired] else [])
  }

  /** The warnings the handler reports, in its order. */
  function ExpectedWarnings(config: Value): seq<string> {
    (if !IsTruthy(At(AppOf(config), "endpoint_name", Null)) then [EndpointWarning] else [])
    + (if !IsTruthy(At(ResourcesOf(config), "llms", EmptyDict)) then [LlmWarning] else [])
  }

  /** Every required field of a deployable configuration is present: a
      named app, a registered model with a name and a schema, at least one
      agent, and a supervisor or a swarm. */
  predicate ChecksPass(config: Value) {
    var model := ModelOf(config);
    var orchestration := OrchestrationOf(config);
    && IsTruthy(At(AppOf(config), "name", Null))
    && IsTruthy(model) && IsTruthy(At(model, "name", Null)) && IsTruthy(At(model, "schema", Null))
    && IsTruthy(AgentsOf(config))
    && (IsTruthy(At(orchestration, "supervisor", Null)) || IsTruthy(At(orchestration, "swarm", Null)))
  }

  /** The report's errors and warnings are exactly the handler's messages,
      each once, in the handler's order, and nothing else. */
  lemma ValidateReportsExactly(config: Value)
    requires Validate(config).Ok?
    ensures Validate(config).value.errors == ExpectedErrors(config)
    ensures Validate(config).value.warnings == ExpectedWarnings(config)
  {
    var facts := AppChecks(AppOf(config)).value;
    assert facts.modelErrors == ModelErrors(ModelOf(config)).value;
  }

  /** `valid` (and so both `available` flags) holds exactly when every
      required field is present. */
  lemma ValidIffChecksPass(config: Value)
    requires Validate(config).Ok?
    ensures Validate(config).value.valid <==> ChecksPass(config)
  {
    ValidateReportsExactly(config);
  }

  /** What `/api/deploy/validate` answers. */
  datatype ValidateResponse =
    | ConfigRequired400
    | ValidationFailed500
    | Validated(report: Report)

  function ValidateDeployment(config: Value): (r: ValidateResponse)
    ensures r.ConfigRequired400? <==> !IsTruthy(config)
    ensures r.ValidationFailed500? <==> IsTruthy(config) && !WellShaped(config)
    ensures r.Validated? ==> r.report == Validate(config).value
  {
    if !IsTruthy(config) then ConfigRequired400
    else
      match Validate(config)
      case Ok(report) => Validated(report)
      case Err(_) => ValidationFailed500
  }

  /** A configuration with `agents: null` is not reported as missing its
      agents: `len(None)` in the report raises and the endpoint answers 500. */
  lemma NullAgentsIsServerError(config: Value)
    requires IsTruthy(config) && config.Object? && AgentsOf(config) == Null
    ensures ValidateDeployment(config) == ValidationFailed500
  {
  }

  /** An empty `registered_model` mapping counts as missing: only the
      top-level message appears, never the name or schema ones. */
  lemma MissingModelHasOneMessage(config: Value)
    requires Validate(config).Ok? && !IsTruthy(ModelOf(config))
    ensures ModelRequired in Validate(config).value.errors
    ensures ModelNameRequired !in Validate(config).value.errors
    ensures ModelSchemaRequired !in Validate(config).value.errors
  {
    ModelErrorsInReport(config);
  }

  /** The `credentials` object of a quick deployment; `None` is a missing or
      `null` field. */
  datatype DeployCredentials = DeployCredentials(
    kind: Option<string>,
    pat: Option<string>,
    clientId: Option<string>,
    clientSecret: Option<string>)

  /** The quick deployment's decision before a job is created: an error
      response, or the credentials and host the worker is started with. */
  datatype QuickPlan =
    | Reject(status: int, error: string)
    | Start(token: Option<string>, clientId: Option<string>, clientSecret: Option<string>, host: string)

  const PatRequired := "PAT is required for manual_pat credential type"
  const SpRequired := "client_id and client_secret are required for manual_sp credential type"
  const AppSpMissing := "Application service principal not configured"
  const NoCredentials := "No credentials available"
  const NoAuthentication := "No authentication available"
  const NoWorkspace := "No Databricks workspace URL configured"
  const ConfigRequired := "config is required"

  /** The credential types with a branch of their own; any other value, or
      none, is on-behalf-of. */
  const CredentialTypes: seq<string> := ["manual_pat", "manual_sp", "app"]

  /** The environment's service principal is configured. */
  predicate EnvServicePrincipal(amb: Ambient) {
    Truthy(EnvGet(amb.env, "DATABRICKS_CLIENT_ID")) && Truthy(EnvGet(amb.env, "DATABRICKS_CLIENT_SECRET"))
  }

  /** The credentials a credential type yields, or the 400 message. */
  function QuickCredentials(creds: DeployCredentials, req: Request, amb: Ambient):
    (r: Result<(Option<string>, Option<string>, Option<string>), string>)
    ensures r.Ok? ==> Truthy(r.value.0) || (Truthy(r.value.1) && Truthy(r.value.2))
    ensures creds.kind == Some("manual_pat") ==>
      (r.Err? <==> !Truthy(creds.pat)) && (r.Err? ==> r.error == PatRequired)
    ensures creds.kind == Some("manual_sp") ==>
      (r.Err? <==> !Truthy(creds.clientId) || !Truthy(creds.clientSecret)) && (r.Err? ==> r.error == SpRequired)
    ensures creds.kind == Some("app") ==>
      (r.Err? <==> !EnvServicePrincipal(amb)) && (r.Err? ==> r.error == AppSpMissing)
    ensures creds.kind.GetOr("obo") !in CredentialTypes ==>
      (r.Err? <==> !Truthy(TokenValue(req, amb)) && !EnvServicePrincipal(amb)) && (r.Err? ==> r.error == NoCredentials)
  {
    var kind := creds.kind.GetOr("obo");
    if kind == "manual_pat" then
      if !Truthy(creds.pat) then Err(PatRequired) else Ok((creds.pat, None, None))
    else if kind == "manual_sp" then
      if !Truthy(creds.clientId) || !Truthy(creds.clientSecret) then Err(SpRequired)
      else Ok((None, creds.clientId, creds.clientSecret))
    else if kind == "app" then
      var id := EnvGet(amb.env, "DATABRICKS_CLIENT_ID");
      var secret := EnvGet(amb.env, "DATABRICKS_CLIENT_SECRET");
      if !Truthy(id) || !Truthy(secret) then Err(AppSpMissing) else Ok((None, id, secret))
    else
      var token := TokenValue(req, amb);
      if Truthy(token) then Ok((token, None, None))
      else
        var id := EnvGet(amb.env, "DATABRICKS_CLIENT_ID");
        var secret := EnvGet(amb.env, "DATABRICKS_CLIENT_SECRET");
        if !Truthy(id) || !Truthy(secret) then Err(NoCredentials) else Ok((token, id, secret))
  }

  /** `deploy_quick` up to the creation of the job. The 401 for want of any
      authentication is kept from `deploy_quick` but cannot be reached: every
      credential type already answered 400 when it found nothing usable. A
      resolved but empty host is refused like a missing one (`if not host`). */
  function QuickPrecheck(config: Value, creds: DeployCredentials, req: Request, amb: Ambient): (r: QuickPlan)
    ensures r.Reject? ==> r.status == 400
    ensures !IsTruthy(config) ==> r == Reject(400, ConfigRequired)
    ensures r.Start? ==> QuickCredentials(creds, req, amb) == Ok((r.token, r.clientId, r.clientSecret))
    ensures r.Reject? && r.error == NoWorkspace <==>
      IsTruthy(config) && QuickCredentials(creds, req, amb).Ok? &&
      (ResolveHost(req, amb).NotFound? || ResolveHost(req, amb).value == "")
    ensures r.Start? ==> IsTruthy(config) && ResolveHost(req, amb).Found? && r.host == ResolveHost(req, amb).value
    ensures r.Start? ==> r.host != ""
    ensures r.Start? ==> Truthy(r.token) || (Truthy(r.clientId) && Truthy(r.clientSecret))
    ensures IsTruthy(config) && QuickCredentials(creds, req, amb).Err? ==>
      r == Reject(400, QuickCredentials(creds, req, amb).error)
  {
    if !IsTruthy(config) then Reject(400, ConfigRequired)
    else
      match QuickCredentials(creds, req, amb)
      case Err(message) => Reject(400, message)
      case Ok((token, id, secret)) =>
        var useServicePrincipal := id.Some? && secret.Some?;
        if !Truthy(token) && !useServicePrincipal then Reject(401, NoAuthentication)
        else
          match ResolveHost(req, amb)
          case NotFound => Reject(400, NoWorkspace)
          case Found(host, _) => if host == "" then Reject(400, NoWorkspace) else Start(token, id, secret, host)
  }

  /** Each credential type takes its credentials from its own place: a
      manual PAT or service principal from the request body, the app's
      service principal from the environment, and on-behalf-of the resolved
      token or, without one, the environment's service principal. */
  lemma QuickCredentialSources(creds: DeployCredentials, req: Request, amb: Ambient)
    requires QuickCredentials(creds, req, amb).Ok?
    ensures creds.kind == Some("manual_pat") ==> QuickCredentials(creds, req, amb).value == (creds.pat, None, None)
    ensures creds.kind == Some("manual_sp") ==>
      QuickCredentials(creds, req, amb).value == (None, creds.clientId, creds.clientSecret)
    ensures creds.kind == Some("app") ==>
      QuickCredentials(creds, req, amb).value
        == (None, EnvGet(amb.env, "DATABRICKS_CLIENT_ID"), EnvGet(amb.env, "DATABRICKS_CLIENT_SECRET"))
    ensures creds.kind.GetOr("obo") !in CredentialTypes ==>
      QuickCredentials(creds, req, amb).value
        == if Truthy(TokenValue(req, amb)) then (TokenValue(req, amb), None, None)
           else (TokenValue(req, amb), EnvGet(amb.env, "DATABRICKS_CLIENT_ID"), EnvGet(amb.env, "DATABRICKS_CLIENT_SECRET"))
  {
  }

  /** Without one of the named types (no type, `obo`, or any other value)
      the request is on-behalf-of: a non-empty resolved token is used, and
      the environment's service principal only without one. */
  lemma QuickDefaultsToObo(creds: DeployCredentials, req: Request, amb: Ambient)
    requires creds.kind.GetOr("obo") !in CredentialTypes
    ensures Truthy(TokenValue(req, amb)) ==> QuickCredentials(creds, req, amb) == Ok((TokenValue(req, amb), None, None))
    ensures !Truthy(TokenValue(req, amb)) ==>
      (QuickCredentials(creds, req, amb).Err? <==>
        !Truthy(EnvGet(amb.env, "DATABRICKS_CLIENT_ID")) || !Truthy(EnvGet(amb.env, "DATABRICKS_CLIENT_SECRET")))
  {
  }
}

=== FILE: envvars.dfy ===
/** The process-environment discipline around SDK calls: the handlers save the
    variables they are about to change, clear and set the authentication
    variables, and restore every saved variable in a `finally` block. The
    environment is a map from names to values; a missing name is unset. */
module EnvVars {
  import opened Base
  import opened Hosts
  import opened Credentials

  type Env = map<string, string>

  /** `orig_env`: the value each saved variable had, `None` when it was unset. */
  type Saved = map<string, Option<string>>

  /** `env_vars_to_manage` of the prompt handlers. */
  const ManagedKeys: seq<string> :=
    ["DATABRICKS_HOST", "DATABRICKS_TOKEN", "DATABRICKS_CLIENT_ID", "DATABRICKS_CLIENT_SECRET"]

  /** The variables the deployment worker saves before it starts. */
  const WorkerKeys: seq<string> := ManagedKeys + ["MLFLOW_TRACKING_TOKEN"]

  /** The authentication variables the worker clears before setting its own. */
  const WorkerClearedKeys: seq<string> :=
    ["DATABRICKS_TOKEN", "DATABRICKS_CLIENT_ID", "DATABRICKS_CLIENT_SECRET", "MLFLOW_TRACKING_TOKEN"]

  /** Saving `keys`: each one mapped to `os.environ.get(key)`. */
  function Snapshot(env: Env, keys: seq<string>): (saved: Saved)
    ensures forall k :: k in saved <==> k in keys
    ensures forall k :: k in saved ==> saved[k] == EnvGet(env, k)
  {
    map k | k in keys :: EnvGet(env, k)
  }

  /** `del os.environ[var]` for every listed variable that is set. */
  function Unset(env: Env, keys: seq<string>): (r: Env)
    ensures forall k :: k in keys ==> EnvGet(r, k).None?
    ensures forall k :: k !in keys ==> EnvGet(r, k) == EnvGet(env, k)
  {
    map k | k in env && k !in keys :: env[k]
  }

  /** The `finally` block: a saved value is put back, a variable saved as
      unset is deleted, and every other variable keeps its current value. */
  function Restore(env: Env, saved: Saved): (r: Env)
    ensures forall k :: k in saved ==> EnvGet(r, k) == saved[k]
    ensures forall k :: k !in saved ==> EnvGet(r, k) == EnvGet(env, k)
  {
    map k | k in env.Keys + saved.Keys && (k in saved ==> saved[k].Some?) ::
      if k in saved then saved[k].value else env[k]
  }

  /** Two environments that agree on every lookup are the same map. */
  lemma EnvExtensional(a: Env, b: Env)
    requires forall k :: EnvGet(a, k) == EnvGet(b, k)
    ensures a == b
  {
    assert forall k :: k in a <==> EnvGet(a, k).Some?;
    assert forall k :: k in b <==> EnvGet(b, k).Some?;
    assert a.Keys == b.Keys;
  }

  /** `saved` records the original value of every variable it names. */
  ghost predicate RecordsOriginal(saved: Saved, env0: Env) {
    forall k :: k in saved ==> saved[k] == EnvGet(env0, k)
  }

  /** `env` differs from `env0` only in variables `saved` names. */
  ghost predicate ChangedOnlySaved(env: Env, saved: Saved, env0: Env) {
    forall k :: k !in saved ==> EnvGet(env, k) == EnvGet(env0, k)
  }

  /** Restoring undoes every change confined to the saved variables. */
  lemma RestoreUndoes(env0: Env, env: Env, saved: Saved)
    requires RecordsOriginal(saved, env0) && ChangedOnlySaved(env, saved, env0)
    ensures Restore(env, saved) == env0
  {
    EnvExtensional(Restore(env, saved), env0);
  }

  /** Restoring a snapshot of `keys` after any change to those keys alone
      gives back the original environment. */
  lemma RestoreSnapshot(env0: Env, env: Env, keys: seq<string>)
    requires forall k :: k !in keys ==> EnvGet(env, k) == EnvGet(env0, k)
    ensures Restore(env, Snapshot(env0, keys)) == env0
  {
    RestoreUndoes(env0, env, Snapshot(env0, keys));
  }

  /** The prompt listing's environment once authentication is set up, or the
      environment at the moment it answers 401 for want of a token. */
  datatype Setup = Ready(env: Env) | NoToken401(env: Env)

  /** The environment once the managed variables are cleared and the
      normalised host is set, as both prompt handlers do first. */
  function ClearedEnv(env: Env, host: string): (r: Env)
    ensures EnvGet(r, "DATABRICKS_HOST") == Some(NormalizeHost(host))
    ensures forall k :: k in ManagedKeys && k != "DATABRICKS_HOST" ==> EnvGet(r, k).None?
    ensures forall k :: k !in ManagedKeys ==> EnvGet(r, k) == EnvGet(env, k)
  {
    Unset(env, ManagedKeys)["DATABRICKS_HOST" := NormalizeHost(host)]
  }

  /** The user token the handlers fall back to: the resolver runs after the
      managed variables were cleared, so it sees no `DATABRICKS_TOKEN`. */
  function TokenAfterClear(req: Request, amb: Ambient, host: string): (r: Option<string>)
    ensures r.Some? <==> ResolveToken(req, amb.(env := ClearedEnv(amb.env, host))).Found?
    ensures r.Some? ==> ResolveToken(req, amb.(env := ClearedEnv(amb.env, host))).source != Env
  {
    TokenValue(req, amb.(env := ClearedEnv(amb.env, host)))
  }

  /** Once the variables are cleared the environment never supplies the
      token: whatever `DATABRICKS_TOKEN` held, the fallback is the same. */
  lemma TokenAfterClearIgnoresEnvToken(req: Request, amb: Ambient, host: string, t: string)
    ensures TokenAfterClear(req, amb.(env := amb.env["DATABRICKS_TOKEN" := t]), host) == TokenAfterClear(req, amb, host)
  {
    var a := amb.(env := amb.env["DATABRICKS_TOKEN" := t]);
    EnvExtensional(ClearedEnv(a.env, host), ClearedEnv(amb.env, host));
  }

  /** The prompt listing: clear the managed variables, set the normalised
      host, then the service principal's id and secret when both resolved,
      else the resolved user token, else answer 401. The process
      environment is `amb.env`. */
  function PromptEnvSetup(host: string, spId: Option<string>, spSecret: Option<string>,
                          req: Request, amb: Ambient): (r: Setup)
    ensures var token := TokenAfterClear(req, amb, host);
      r.NoToken401? <==> !(Truthy(spId) && Truthy(spSecret)) && !Truthy(token)
    ensures EnvGet(r.env, "DATABRICKS_HOST") == Some(NormalizeHost(host))
    ensures Truthy(spId) && Truthy(spSecret) ==>
      && EnvGet(r.env, "DATABRICKS_CLIENT_ID") == spId
      && EnvGet(r.env, "DATABRICKS_CLIENT_SECRET") == spSecret
      && EnvGet(r.env, "DATABRICKS_TOKEN").None?
    ensures var token := TokenAfterClear(req, amb, host);
      !(Truthy(spId) && Truthy(spSecret)) ==>
      && EnvGet(r.env, "DATABRICKS_TOKEN") == (if Truthy(token) then token else None)
      && EnvGet(r.env, "DATABRICKS_CLIENT_ID").None?
      && EnvGet(r.env, "DATABRICKS_CLIENT_SECRET").None?
    ensures forall k :: k !in ManagedKeys ==> EnvGet(r.env, k) == EnvGet(amb.env, k)
  {
    var base := ClearedEnv(amb.env, host);
    if Truthy(spId) && Truthy(spSecret) then
      Ready(base["DATABRICKS_CLIENT_ID" := spId.value]["DATABRICKS_CLIENT_SECRET" := spSecret.value])
    else
      var token := TokenAfterClear(req, amb, host);
      if Truthy(token) then Ready(base["DATABRICKS_TOKEN" := token.value])
      else NoToken401(base)
  }

  /** Whatever the SDK then does to the managed variables, and also on the
      401 path, the listing leaves the environment as it found it. */
  lemma PromptListingRestoresEnv(host: string, spId: Option<string>, spSecret: Option<string>,
                                 req: Request, amb: Ambient, later: Env)
    requires forall k :: k !in ManagedKeys ==>
      EnvGet(later, k) == EnvGet(PromptEnvSetup(host, spId, spSecret, req, amb).env, k)
    ensures Restore(later, Snapshot(amb.env, ManagedKeys)) == amb.env
  {
    RestoreSnapshot(amb.env, later, ManagedKeys);
  }

  /** The template loader: clear the managed variables and set the normalised
      host; take the token from the service principal's OAuth exchange when
      one is configured (`spToken`, the `access_token` it returned), else
      from the resolver; without a token answer 401; with one, set the host
      again and the token before loading. */
  function TemplateEnvSetup(host: string, useServicePrincipal: bool, spToken: Option<string>,
                            req: Request, amb: Ambient): (r: Setup)
    ensures var token := if useServicePrincipal then spToken else TokenAfterClear(req, amb, host);
      && (r.NoToken401? <==> !Truthy(token))
      && EnvGet(r.env, "DATABRICKS_TOKEN") == (if Truthy(token) then token else None)
    ensures EnvGet(r.env, "DATABRICKS_HOST") == Some(NormalizeHost(host))
    ensures EnvGet(r.env, "DATABRICKS_CLIENT_ID").None? && EnvGet(r.env, "DATABRICKS_CLIENT_SECRET").None?
    ensures forall k :: k !in ManagedKeys ==> EnvGet(r.env, k) == EnvGet(amb.env, k)
  {
    var base := ClearedEnv(amb.env, host);
    var token := if useServicePrincipal then spToken else TokenAfterClear(req, amb, host);
    if !Truthy(token) then NoToken401(base)
    else Ready(base["DATABRICKS_HOST" := NormalizeHost(host)]["DATABRICKS_TOKEN" := token.value])
  }

  lemma TemplateLoadRestoresEnv(host: string, useServicePrincipal: bool, spToken: Option<string>,
                                req: Request, amb: Ambient)
    ensures Restore(TemplateEnvSetup(host, useServicePrincipal, spToken, req, amb).env,
                    Snapshot(amb.env, ManagedKeys)) == amb.env
  {
    RestoreSnapshot(amb.env, TemplateEnvSetup(host, useServicePrincipal, spToken, req, amb).env, ManagedKeys);
  }

  /** The worker's authentication: clear the token, client and MLflow
      variables, set the normalised host, then the token (also as the MLflow
      tracking token) when there is one, else the service principal when both
      its id and secret are non-empty. */
  function WorkerAuthEnv(env: Env, host: string, token: Option<string>,
                         spId: Option<string>, spSecret: Option<string>): (r: Env)
    ensures EnvGet(r, "DATABRICKS_HOST") == Some(NormalizeHost(host))
    ensures Truthy(token) ==>
      && EnvGet(r, "DATABRICKS_TOKEN") == token && EnvGet(r, "MLFLOW_TRACKING_TOKEN") == token
      && EnvGet(r, "DATABRICKS_CLIENT_ID").None? && EnvGet(r, "DATABRICKS_CLIENT_SECRET").None?
    ensures !Truthy(token) ==>
      && EnvGet(r, "DATABRICKS_TOKEN").None? && EnvGet(r, "MLFLOW_TRACKING_TOKEN").None?
      && EnvGet(r, "DATABRICKS_CLIENT_ID") == (if Truthy(spId) && Truthy(spSecret) then spId else None)
      && EnvGet(r, "DATABRICKS_CLIENT_SECRET") == (if Truthy(spId) && Truthy(spSecret) then spSecret else None)
    ensures forall k :: k !in WorkerKeys ==> EnvGet(r, k) == EnvGet(env, k)
  {
    var base := Unset(env, WorkerClearedKeys)["DATABRICKS_HOST" := NormalizeHost(host)];
    if Truthy(token) then base["DATABRICKS_TOKEN" := token.value]["MLFLOW_TRACKING_TOKEN" := token.value]
    else if Truthy(spId) && Truthy(spSecret) then
      base["DATABRICKS_CLIENT_ID" := spId.value]["DATABRICKS_CLIENT_SECRET" := spSecret.value]
    else base
  }

  /** One entry of the configuration's `environment_vars`, its value already
      passed through `str()`, or `None` when the value is `None`. */
  datatype ConfigVar = ConfigVar(key: string, value: Option<string>)

  /** The marker of a Model Serving secret reference. */
  const SecretMarker: string := "{{secrets/"

  /** A configured variable the worker sets: a value that is not `None` and
      holds no secret reference. */
  predicate Applied(v: ConfigVar) {
    v.value.Some? && !Contains(v.value.value, SecretMarker)
  }

  /** The environment and the saved values as the worker goes along. */
  datatype EnvState = EnvState(env: Env, saved: Saved)

  /** Setting one configured variable: skipped unless applied; its current
      value is saved unless the variable is saved already, then it is set. */
  function ApplyConfigVar(st: EnvState, v: ConfigVar): (r: EnvState)
    ensures !Applied(v) ==> r == st
    ensures Applied(v) ==> EnvGet(r.env, v.key) == v.value
    ensures forall k :: k != v.key ==> EnvGet(r.env, k) == EnvGet(st.env, k)
    ensures r.saved.Keys == if Applied(v) then st.saved.Keys + {v.key} else st.saved.Keys
    ensures forall k :: k in st.saved ==> r.saved[k] == st.saved[k]
    ensures v.key in r.saved && v.key !in st.saved ==> r.saved[v.key] == EnvGet(st.env, v.key)
  {
    if !Applied(v) then st
    else
      var saved := if v.key in st.saved then st.saved else st.saved[v.key := EnvGet(st.env, v.key)];
      EnvState(st.env[v.key := v.value.value], saved)
  }

  /** The loop over `environment_vars`, in order. */
  function ApplyConfigVars(st: EnvState, vars: seq<ConfigVar>): EnvState
    decreases |vars|
  {
    if |vars| == 0 then st else ApplyConfigVars(ApplyConfigVar(st, vars[0]), vars[1..])
  }

  /** Each configured variable keeps the first value saved for it, which is
      its value before the worker touched it: the pair of invariants the
      restore relies on survives the loop. */
  lemma {:induction false} ApplyConfigVarsKeepsRecord(env0: Env, st: EnvState, vars: seq<ConfigVar>)
    requires RecordsOriginal(st.saved, env0) && ChangedOnlySaved(st.env, st.saved, env0)
    ensures RecordsOriginal(ApplyConfigVars(st, vars).saved, env0)
    ensures ChangedOnlySaved(ApplyConfigVars(st, vars).env, ApplyConfigVars(st, vars).saved, env0)
    decreases |vars|
  {
    if |vars| > 0 {
      ApplyConfigVarsKeepsRecord(env0, ApplyConfigVar(st, vars[0]), vars[1..]);
    }
  }

  /** Variables the configuration does not apply keep their value. */
  lemma {:induction false} ApplyConfigVarsLeavesOthers(st: EnvState, vars: seq<ConfigVar>, k: string)
    requires forall i :: 0 <= i < |vars| && Applied(vars[i]) ==> vars[i].key != k
    ensures EnvGet(ApplyConfigVars(st, vars).env, k) == EnvGet(st.env, k)
    ensures k in ApplyConfigVars(st, vars).saved <==> k in st.saved
    decreases |vars|
  {
    if |vars| > 0 {
      assert Applied(vars[0]) ==> vars[0].key != k;
      ApplyConfigVarsLeavesOthers(ApplyConfigVar(st, vars[0]), vars[1..], k);
    }
  }

  /** A variable ends with the value of the last applied entry for it. */
  lemma {:induction false} ApplyConfigVarsLastWins(st: EnvState, vars: seq<ConfigVar>, i: int)
    requires 0 <= i < |vars| && Applied(vars[i])
    requires forall j :: i < j < |vars| && Applied(vars[j]) ==> vars[j].key != vars[i].key
    ensures EnvGet(ApplyConfigVars(st, vars).env, vars[i].key) == vars[i].value
    decreases |vars|
  {
    var next := ApplyConfigVar(st, vars[0]);
    if i == 0 {
      ApplyConfigVarsLeavesOthers(next, vars[1..], vars[0].key);
    } else {
      ApplyConfigVarsLastWins(next, vars[1..], i - 1);
    }
  }

  /** A value holding a secret reference is never set. */
  lemma SecretReferenceSkipped(st: EnvState, v: ConfigVar)
    requires v.value.Some? && Contains(v.value.value, SecretMarker)
    ensures ApplyConfigVar(st, v) == st
  {
  }

  /** The worker's whole environment handling, authentication and configured
      variables, is undone by its `finally` block. */
  lemma WorkerRestoresEnv(env0: Env, host: string, token: Option<string>, spId: Option<string>,
                          spSecret: Option<string>, vars: seq<ConfigVar>)
    ensures var st := ApplyConfigVars(EnvState(WorkerAuthEnv(env0, host, token, spId, spSecret),
                                                Snapshot(env0, WorkerKeys)), vars);
      Restore(st.env, st.saved) == env0
  {
    var st0 := EnvState(WorkerAuthEnv(env0, host, token, spId, spSecret), Snapshot(env0, WorkerKeys));
    ApplyConfigVarsKeepsRecord(env0, st0, vars);
    var st := ApplyConfigVars(st0, vars);
    RestoreUndoes(env0, st.env, st.saved);
  }
}

=== FILE: hosts.dfy ===
/** Workspace-host normalisation and the Databricks Apps URL test
    (`normalize_host` and `is_databricks_app_url` in app.py). */
module Hosts {
  import opened Base

  /** The host after `strip()` and `rstrip('/')`, before any scheme is added. */
  function TrimHost(host: string): string {
    RStripChar(Strip(host), '/')
  }

  predicate HasScheme(s: string) {
    StartsWith(s, "http://") || StartsWith(s, "https://")
  }

  /** `normalize_host`: an empty host is returned as is; otherwise the trimmed
      host is kept and `https://` is put in front unless it already names a
      scheme. */
  function NormalizeHost(host: string): (r: string)
    ensures host == "" ==> r == ""
    ensures host != "" ==> HasScheme(r) && EndsWith(r, TrimHost(host))
    ensures host != "" ==> r == TrimHost(host) || r == "https://" + TrimHost(host)
    ensures host != "" && HasScheme(TrimHost(host)) ==> r == TrimHost(host)
  {
    if host == "" then host
    else
      var h := TrimHost(host);
      if StartsWith(h, "http://") || StartsWith(h, "https://") then h else "https://" + h
  }

  /** When the trimmed host is non-empty the result never ends in `/`. */
  lemma NormalizeHasNoTrailingSlash(host: string)
    requires TrimHost(host) != ""
    ensures var r := NormalizeHost(host); |r| > 0 && r[|r| - 1] != '/'
  {
    var h := TrimHost(host);
    assert host != "";
    var r := NormalizeHost(host);
    assert r[|r| - 1] == h[|h| - 1];
  }

  /** Normalising is idempotent whenever the trimmed host is non-empty and does
      not end in whitespace (which `rstrip('/')` can expose, as in `"a /"`). */
  lemma NormalizeIdempotent(host: string)
    requires TrimHost(host) != ""
    requires !IsSpace(TrimHost(host)[|TrimHost(host)| - 1])
    ensures NormalizeHost(NormalizeHost(host)) == NormalizeHost(host)
  {
    var h := TrimHost(host);
    var r := NormalizeHost(host);
    assert host != "";
    assert r[0] == 'h';
    assert r[|r| - 1] == h[|h| - 1];
    assert LStrip(r) == r;
    assert RStrip(r) == r;
    assert Strip(r) == r;
    assert RStripChar(r, '/') == r;
    assert TrimHost(r) == r;
    NormalizeFixedPoint(r);
  }

  /** A trimmed host that names its scheme is left as it is. */
  lemma NormalizeFixedPoint(r: string)
    requires r != "" && TrimHost(r) == r && HasScheme(r)
    ensures NormalizeHost(r) == r
  {
  }

  /** A host with no surrounding whitespace and no trailing `/` is its own
      trimmed form. */
  lemma TrimHostClean(t: string)
    requires |t| > 0 && !IsSpace(t[0]) && !IsSpace(t[|t| - 1]) && t[|t| - 1] != '/'
    ensures TrimHost(t) == t
  {
    StripUnchanged(t);
  }

  /** One trailing space after a clean host is removed by trimming. */
  lemma TrimHostDropsSpace(t: string)
    requires |t| > 0 && !IsSpace(t[0]) && !IsSpace(t[|t| - 1]) && t[|t| - 1] != '/'
    ensures TrimHost(t + " ") == t
  {
    var u := t + " ";
    assert LStrip(u) == u;
    assert u[..|u| - 1] == t;
  }

  /** A trailing `/` is dropped by trimming together with any `/` before it. */
  lemma TrimHostDropsSlash(t: string)
    requires |t| > 0 && !IsSpace(t[0])
    ensures TrimHost(t + "/") == RStripChar(t, '/')
  {
    var u := t + "/";
    StripUnchanged(u);
    assert u[..|u| - 1] == t;
  }

  /** A clean host without a scheme gets `https://` put in front. */
  lemma NormalizeAddsScheme(h: string)
    requires |h| > 0 && !IsSpace(h[0]) && !IsSpace(h[|h| - 1]) && h[|h| - 1] != '/'
    requires !HasScheme(h)
    ensures NormalizeHost(h) == "https://" + h
  {
    TrimHostClean(h);
  }

  /** A clean host that names its scheme, `http://` included, is kept as is. */
  lemma NormalizeKeepsScheme(h: string)
    requires |h| > 0 && !IsSpace(h[0]) && !IsSpace(h[|h| - 1]) && h[|h| - 1] != '/'
    requires HasScheme(h)
    ensures NormalizeHost(h) == h
  {
    TrimHostClean(h);
  }

  /** A trailing `/` makes no difference to the normalised host. */
  lemma NormalizeIgnoresTrailingSlash(t: string)
    requires |t| > 0 && !IsSpace(t[0]) && !IsSpace(t[|t| - 1])
    ensures NormalizeHost(t + "/") == NormalizeHost(t)
  {
    TrimHostDropsSlash(t);
    StripUnchanged(t);
  }

  /** A host made of whitespace and slashes normalises to the bare scheme. */
  lemma NormalizeBlank()
    ensures NormalizeHost(" / ") == "https://"
  {
    assert LStrip(" / ") == "/ ";
  }

  /** ... and the bare scheme is not a fixed point: normalising it again
      yields `https://https:`. */
  lemma NormalizeBareSchemeIsNotFixedPoint()
    ensures NormalizeHost("https://") == "https://https:"
  {
    TrimHostDropsSlash("https:/");
    assert "https:/" + "/" == "https://";
    assert TrimHost("https://") == "https:";
    assert !StartsWith("https:", "http://") && !StartsWith("https:", "https://");
  }

  /** Whitespace exposed by `rstrip('/')` survives one normalisation ... */
  lemma NormalizeKeepsExposedSpace()
    ensures NormalizeHost("a /") == "https://a "
  {
    TrimHostDropsSlash("a ");
    assert "a " + "/" == "a /";
  }

  /** ... and is removed by the next, so `"a /"` needs two normalisations. */
  lemma NormalizeSecondPassDropsSpace()
    ensures NormalizeHost("https://a ") == "https://a"
  {
    TrimHostDropsSpace("https://a");
    assert "https://a" + " " == "https://a ";
  }

  /** `is_databricks_app_url`: true exactly when the host is non-empty and its
      lower-cased form contains `databricksapps.com`. */
  function IsDatabricksAppUrl(host: string): (r: bool)
    ensures r <==> host != "" && exists i :: OccursAt(Lower(host), "databricksapps.com", i)
  {
    ContainsIffOccurs(Lower(host), "databricksapps.com");
    host != "" && Contains(Lower(host), "databricksapps.com")
  }
}

=== FILE: jobs.dfy ===
/** The quick-deployment job tracker: the job record, the worker's steps and
    cancellation gates, the `failed` handler, and the status, list and cancel
    endpoints over the job store. */
module Jobs {
  import opened Base
  import opened Sorting

  /** The job-level `status` strings. */
  datatype JobStatus = Starting | CreatingAgent | Deploying | Completed | Failed | Cancelled

  /** A step's `status` strings. */
  datatype StepStatus = Pending | Running | StepCompleted | StepFailed

  datatype Step = Step(name: string, status: StepStatus, error: Option<string>)

  /** The `result` of a completed deployment. */
  datatype DeployResult = DeployResult(endpointName: string, modelName: string)

  /** A job as the status endpoint shows it. `cancelled` is false while the
      key is absent. Timestamps are ISO strings supplied by the caller. */
  datatype Job = Job(
    id: string,
    status: JobStatus,
    startedAt: string,
    steps: seq<Step>,
    current: nat,
    cancelled: bool,
    error: Option<string>,
    completedAt: Option<string>,
    result: Option<DeployResult>)

  const StepNames: seq<string> := ["validate", "create_agent", "deploy_agent"]

  const CancelledByUser := "Cancelled by user"

  /** The statuses from which a job can still be cancelled. */
  predicate InProgress(s: JobStatus) {
    s == Starting || s == CreatingAgent || s == Deploying
  }

  /** The shape every job keeps: its three named steps and a current step
      that indexes one of them. */
  predicate WellFormed(j: Job) {
    && |j.steps| == |StepNames|
    && (forall i :: 0 <= i < |j.steps| ==> j.steps[i].name == StepNames[i])
    && j.current < |j.steps|
  }

  /** The record `deploy_quick` stores before starting the worker. */
  function NewJob(id: string, startedAt: string): (j: Job)
    ensures WellFormed(j) && j.status == Starting && InProgress(j.status)
    ensures forall i :: 0 <= i < |j.steps| ==> j.steps[i].status == Pending && j.steps[i].error.None?
    ensures j.current == 0 && !j.cancelled && j.error.None? && j.result.None? && j.completedAt.None?
  {
    Job(id, Starting, startedAt, [Step("validate", Pending, None), Step("create_agent", Pending, None),
                                  Step("deploy_agent", Pending, None)], 0, false, None, None, None)
  }

  /** `steps[i]['status'] = s`; the step's error is kept. */
  function MarkStep(j: Job, i: nat, s: StepStatus): (r: Job)
    requires WellFormed(j) && i < |j.steps|
    ensures WellFormed(r)
    ensures r.steps[i] == j.steps[i].(status := s)
    ensures forall k :: 0 <= k < |j.steps| && k != i ==> r.steps[k] == j.steps[k]
    ensures r == j.(steps := r.steps)
  {
    j.(steps := j.steps[i := j.steps[i].(status := s)])
  }

  /** Where the worker may have to stop: a cancelled job is left as it is. */
  datatype Gate = Proceed(job: Job) | Stopped

  /** Step 1 starts: `validate` running. No cancellation check. */
  function BeginValidate(j: Job): (r: Job)
    requires WellFormed(j)
    ensures WellFormed(r) && r.current == 0 && r.steps[0].status == Running
    ensures r.status == j.status && r.cancelled == j.cancelled && r.result == j.result
  {
    MarkStep(j, 0, Running).(current := 0)
  }

  /** Step 1 ends: `validate` completed. No cancellation check. */
  function FinishValidate(j: Job): (r: Job)
    requires WellFormed(j)
    ensures WellFormed(r) && r.steps[0].status == StepCompleted
    ensures r.status == j.status && r.cancelled == j.cancelled && r.current == j.current && r.result == j.result
  {
    MarkStep(j, 0, StepCompleted)
  }

  /** Under the lock, before creating the agent. */
  function EnterCreate(j: Job): (r: Gate)
    requires WellFormed(j)
    ensures r.Stopped? <==> j.cancelled
    ensures r.Proceed? ==>
      && WellFormed(r.job) && r.job.status == CreatingAgent && r.job.current == 1
      && r.job.steps[1].status == Running && r.job.steps[0] == j.steps[0]
      && !r.job.cancelled && r.job.result == j.result
  {
    if j.cancelled then Stopped
    else Proceed(MarkStep(j, 1, Running).(current := 1, status := CreatingAgent))
  }

  /** Under the lock, before deploying. */
  function EnterDeploy(j: Job): (r: Gate)
    requires WellFormed(j)
    ensures r.Stopped? <==> j.cancelled
    ensures r.Proceed? ==>
      && WellFormed(r.job) && r.job.status == Deploying && r.job.current == 2
      && r.job.steps[1].status == StepCompleted && r.job.steps[2].status == Running
      && r.job.steps[0] == j.steps[0] && !r.job.cancelled && r.job.result == j.result
  {
    if j.cancelled then Stopped
    else Proceed(MarkStep(MarkStep(j, 1, StepCompleted), 2, Running).(current := 2, status := Deploying))
  }

  /** Under the lock, after deploying: even a finished deployment yields to
      a cancellation that came first. */
  function FinishDeploy(j: Job, now: string, result: DeployResult): (r: Gate)
    requires WellFormed(j)
    ensures r.Stopped? <==> j.cancelled
    ensures r.Proceed? ==>
      && WellFormed(r.job) && r.job.status == Completed
      && r.job.steps[2].status == StepCompleted
      && r.job.steps[0] == j.steps[0] && r.job.steps[1] == j.steps[1]
      && r.job.completedAt == Some(now) && r.job.result == Some(result) && !r.job.cancelled
  {
    if j.cancelled then Stopped
    else Proceed(MarkStep(j, 2, StepCompleted).(status := Completed, completedAt := Some(now), result := Some(result)))
  }

  /** The worker's `except` handler: outside the lock and whatever the
      cancellation flag says, the job fails and so does its current step. */
  function Fail(j: Job, message: string, now: string): (r: Job)
    requires WellFormed(j)
    ensures WellFormed(r) && r.status == Failed && r.error == Some(message) && r.completedAt == Some(now)
    ensures r.steps[j.current] == Step(j.steps[j.current].name, StepFailed, Some(message))
    ensures forall k :: 0 <= k < |j.steps| && k != j.current ==> r.steps[k] == j.steps[k]
    ensures r.cancelled == j.cancelled && r.current == j.current && r.result == j.result
  {
    var failed := j.steps[j.current].(status := StepFailed, error := Some(message));
    j.(status := Failed, error := Some(message), completedAt := Some(now), steps := j.steps[j.current := failed])
  }

  /** `cancel_deployment` on an existing job: 400 unless the job is in
      progress; otherwise the flag, the status and the current step's
      failure are set together. */
  function Cancel(j: Job, now: string): (r: Result<Job, string>)
    requires WellFormed(j)
    ensures r.Ok? <==> InProgress(j.status)
    ensures r.Err? ==> r.error == "Deployment cannot be cancelled"
    ensures r.Ok? ==> r.value.id == j.id && r.value.startedAt == j.startedAt
    ensures r.Ok? ==> && WellFormed(r.value) && r.value.cancelled && r.value.status == Cancelled
                      && r.value.completedAt == Some(now) && r.value.current == j.current
                      && r.value.steps[j.current] == Step(j.steps[j.current].name, StepFailed, Some(CancelledByUser))
                      && (forall k :: 0 <= k < |j.steps| && k != j.current ==> r.value.steps[k] == j.steps[k])
                      && r.value.result == j.result
  {
    if !InProgress(j.status) then Err("Deployment cannot be cancelled")
    else
      var failed := j.steps[j.current].(status := StepFailed, error := Some(CancelledByUser));
      Ok(j.(cancelled := true, status := Cancelled, completedAt := Some(now), steps := j.steps[j.current := failed]))
  }

  /** A job can be cancelled at most once. */
  lemma CancelOnce(j: Job, now: string, later: string)
    requires WellFormed(j) && Cancel(j, now).Ok?
    ensures Cancel(Cancel(j, now).value, later).Err?
  {
  }

  /** Where an exception can interrupt the worker: after 1 to 4 stages, or
      in the `finally` block (5). */
  type RaisePoint = p: nat | 1 <= p <= 5 witness 1

  /** What the worker does besides its own steps. */
  datatype Outcome =
    | Succeeds(result: DeployResult)
    | RaisesAt(point: RaisePoint, message: string)  // an exception after `point` stages; 5 is the `finally` block

  /** The cancellation request, if it succeeds; a refused one changes nothing. */
  function CancelOrKeep(j: Job, now: string): (r: Job)
    requires WellFormed(j)
    ensures WellFormed(r)
  {
    match Cancel(j, now)
    case Ok(c) => c
    case Err(_) => j
  }

  /** The worker's stage `i`: begin and finish validation, then the three
      gates. */
  function Stage(j: Job, i: nat, now: string, result: DeployResult): (r: Gate)
    requires WellFormed(j) && i < 5
    ensures r.Proceed? ==> WellFormed(r.job)
  {
    if i == 0 then Proceed(BeginValidate(j))
    else if i == 1 then Proceed(FinishValidate(j))
    else if i == 2 then EnterCreate(j)
    else if i == 3 then EnterDeploy(j)
    else FinishDeploy(j, now, result)
  }

  /** The worker's way out: the `finally` block that restores the
      environment and removes the configuration file runs on every exit, and
      an exception it raises (point 5) still fails the job. */
  function Leave(j: Job, outcome: Outcome, now: string): (r: Job)
    requires WellFormed(j)
    ensures WellFormed(r)
    ensures outcome.RaisesAt? && outcome.point == 5 ==> r == Fail(j, outcome.message, now)
    ensures !(outcome.RaisesAt? && outcome.point == 5) ==> r == j
  {
    if outcome.RaisesAt? && outcome.point == 5 then Fail(j, outcome.message, now) else j
  }

  /** One worker run from point `i` on, with a single cancellation request
      arriving at point `cancelAt` (never, when it is past 5). At each point
      the cancellation comes first, then the exception if one is due, then
      the stage; the `finally` block runs when the worker stops at a gate
      and after the last stage. Further cancellation requests are refused
      once the first has succeeded, so one request covers every
      interleaving. */
  function Run(j: Job, i: nat, cancelAt: nat, outcome: Outcome, now: string): (r: Job)
    requires WellFormed(j) && i <= 5
    ensures WellFormed(r)
    decreases 5 - i
  {
    var j1 := if i == cancelAt then CancelOrKeep(j, now) else j;
    if outcome.RaisesAt? && outcome.point == i && 1 <= i <= 4 then Fail(j1, outcome.message, now)
    else if i == 5 then Leave(j1, outcome, now)
    else
      var result := if outcome.Succeeds? then outcome.result else DeployResult("", "");
      match Stage(j1, i, now, result)
      case Stopped => Leave(j1, outcome, now)
      case Proceed(j2) => Run(j2, i + 1, cancelAt, outcome, now)
  }

  /** A run that is neither cancelled in time nor interrupted completes, with
      every step completed and the result recorded. */
  lemma UninterruptedRunCompletes(id: string, started: string, result: DeployResult, cancelAt: nat, now: string)
    requires cancelAt >= 5
    ensures var f := Run(NewJob(id, started), 0, cancelAt, Succeeds(result), now);
      && f.status == Completed && !f.cancelled && f.result == Some(result)
      && forall k :: 0 <= k < |f.steps| ==> f.steps[k].status == StepCompleted
  {
  }

  /** A cancellation before the final gate always wins over a successful
      deployment: the job ends cancelled without a result. */
  lemma CancelledRunHasNoResult(id: string, started: string, result: DeployResult, cancelAt: nat, now: string)
    requires cancelAt < 5
    ensures var f := Run(NewJob(id, started), 0, cancelAt, Succeeds(result), now);
      f.status == Cancelled && f.cancelled && f.result.None? && f.completedAt == Some(now)
  {
  }

  /** Without a cancellation, an exception at any point fails the job with
      its message. */
  lemma UncancelledRaiseFails(id: string, started: string, point: nat, message: string, cancelAt: nat, now: string)
    requires 1 <= point <= 4 && cancelAt > 5
    ensures var f := Run(NewJob(id, started), 0, cancelAt, RaisesAt(point, message), now);
      f.status == Failed && !f.cancelled && f.error == Some(message) && f.result.None?
  {
  }

  /** An exception in the `finally` block fails even a job whose deployment
      completed: the job keeps its result but reads `failed`, with its last
      step failed. */
  lemma FinallyRaiseFailsCompletedJob(id: string, started: string, message: string, cancelAt: nat, now: string)
    requires cancelAt > 5
    ensures var f := Run(NewJob(id, started), 0, cancelAt, RaisesAt(5, message), now);
      && f.status == Failed && !f.cancelled && f.error == Some(message) && f.result.Some?
      && f.steps[2] == Step("deploy_agent", StepFailed, Some(message))
  {
  }

  /** An exception in the `finally` block after a gate stopped a cancelled
      worker turns the cancelled job into a failed one, wherever the
      cancellation came. */
  lemma FinallyRaiseAfterCancelFails(id: string, started: string, message: string, cancelAt: nat, now: string)
    requires cancelAt < 5
    ensures var f := Run(NewJob(id, started), 0, cancelAt, RaisesAt(5, message), now);
      f.status == Failed && f.cancelled && f.error == Some(message) && f.result.None?
  {
    if cancelAt == 0 {
    } else if cancelAt == 1 {
    } else if cancelAt == 2 {
    } else if cancelAt == 3 {
    } else {
    }
  }

  /** An exception fails the job even after a cancellation, as long as no gate
      has stopped the worker in between. */
  lemma CancelThenRaiseIsFailed(id: string, started: string, point: nat, message: string, now: string)
    requires 1 <= point <= 4
    ensures var f := Run(NewJob(id, started), 0, point, RaisesAt(point, message), now);
      f.status == Failed && f.cancelled && f.error == Some(message)
  {
  }

  /** The worker sets `completed` only after all three steps completed,
      whatever the cancellation and the outcome. */
  lemma CompletedRunHasAllStepsCompleted(id: string, started: string, cancelAt: nat, outcome: Outcome, now: string)
    ensures var f := Run(NewJob(id, started), 0, cancelAt, outcome, now);
      f.status == Completed ==> forall k :: 0 <= k < |f.steps| ==> f.steps[k].status == StepCompleted
  {
    CompletedOnlyWithAllSteps(NewJob(id, started), 0, cancelAt, outcome, now);
  }

  predicate AllStepsCompleted(j: Job) {
    forall k :: 0 <= k < |j.steps| ==> j.steps[k].status == StepCompleted
  }

  /** From any point of a run, a job that is not yet completed ends
      `completed` only with every step completed: validation completes step
      0, the deploy gate step 1 and the final gate step 2, and a cancelled
      job never passes a gate. */
  lemma {:induction false} CompletedOnlyWithAllSteps(j: Job, i: nat, cancelAt: nat, outcome: Outcome, now: string)
    requires WellFormed(j) && i <= 5
    requires i < 5 ==> j.status != Completed
    requires i == 5 && j.status == Completed ==> AllStepsCompleted(j)
    requires j.cancelled ==> j.status == Cancelled
    requires !j.cancelled && i >= 2 ==> j.steps[0].status == StepCompleted
    requires !j.cancelled && i >= 4 ==> j.steps[1].status == StepCompleted
    ensures Run(j, i, cancelAt, outcome, now).status == Completed ==> AllStepsCompleted(Run(j, i, cancelAt, outcome, now))
    decreases 5 - i
  {
    var j1 := if i == cancelAt then CancelOrKeep(j, now) else j;
    if outcome.RaisesAt? && outcome.point == i && 1 <= i <= 4 {
    } else if i == 5 {
    } else {
      var result := if outcome.Succeeds? then outcome.result else DeployResult("", "");
      match Stage(j1, i, now, result)
      case Stopped =>
      case Proceed(j2) =>
        if i == 4 {
          assert AllStepsCompleted(j2);
        }
        CompletedOnlyWithAllSteps(j2, i + 1, cancelAt, outcome, now);
    }
  }

  /** A cancellation during validation is later overwritten in the step list:
      the job is cancelled while its `validate` step reads completed, still
      carrying the cancellation message. */
  lemma CancelDuringValidateShowsCompletedStep(id: string, started: string, result: DeployResult, now: string)
    ensures var f := Run(NewJob(id, started), 0, 1, Succeeds(result), now);
      && f.status == Cancelled
      && f.steps[0] == Step("validate", StepCompleted, Some(CancelledByUser))
  {
  }

  /** Every run ends in `completed`, `failed` or `cancelled`, never in a
      status that still accepts a cancellation. */
  lemma {:induction false} RunEndsSettled(j: Job, i: nat, cancelAt: nat, outcome: Outcome, now: string)
    requires WellFormed(j) && i <= 5
    requires i < 5 ==> InProgress(j.status) || j.status == Cancelled
    requires i == 5 ==> !InProgress(j.status)
    requires j.status == Cancelled ==> j.cancelled
    requires InProgress(j.status) ==> !j.cancelled
    requires cancelAt < i ==> j.status == Cancelled
    ensures !InProgress(Run(j, i, cancelAt, outcome, now).status)
    decreases 5 - i
  {
    var j1 := if i == cancelAt then CancelOrKeep(j, now) else j;
    if outcome.RaisesAt? && outcome.point == i && 1 <= i <= 4 {
    } else if i == 5 {
    } else {
      var result := if outcome.Succeeds? then outcome.result else DeployResult("", "");
      match Stage(j1, i, now, result)
      case Stopped =>
      case Proceed(j2) =>
        assert j2.status == Cancelled ==> j2.cancelled;
        RunEndsSettled(j2, i + 1, cancelAt, outcome, now);
    }
  }

  /** `_deployment_status`: the jobs in insertion order. */
  type Store = seq<Job>

  predicate UniqueIds(store: Store) {
    forall a, b :: 0 <= a < b < |store| ==> store[a].id != store[b].id
  }

  /** The position of the job with `id`, if any. */
  function Find(store: Store, id: string): (r: Option<nat>)
    ensures r.Some? ==> r.value < |store| && store[r.value].id == id
    ensures r.None? <==> forall k :: 0 <= k < |store| ==> store[k].id != id
    ensures r.Some? ==> forall k :: 0 <= k < r.value ==> store[k].id != id
  {
    if |store| == 0 then None
    else if store[0].id == id then Some(0)
    else
      match Find(store[1..], id)
      case None =>
        assert forall k :: 1 <= k < |store| ==> store[k] == store[1..][k - 1];
        None
      case Some(k) =>
        assert forall m :: 1 <= m < k + 1 ==> store[m] == store[1..][m - 1];
        Some(k + 1)
  }

  /** Storing a job under its id: an existing entry is replaced in place,
      a new id is appended. */
  function Put(store: Store, j: Job): (r: Store)
    requires UniqueIds(store)
    ensures UniqueIds(r)
    ensures Find(r, j.id).Some? && r[Find(r, j.id).value] == j
    ensures forall k :: 0 <= k < |store| && store[k].id != j.id ==> store[k] in r
    ensures |r| == if Find(store, j.id).Some? then |store| else |store| + 1
  {
    match Find(store, j.id)
    case Some(k) =>
      var r := store[k := j];
      FindAfterUpdate(store, j.id, k, j);
      assert forall m :: 0 <= m < |store| && m != k ==> r[m] == store[m];
      r
    case None =>
      var r := store + [j];
      assert forall m :: 0 <= m < |store| ==> r[m] == store[m];
      assert r[|store|] == j;
      r
  }

  /** Replacing the job found under `id` by one with the same id keeps it
      where it was found. */
  lemma FindAfterUpdate(store: Store, id: string, k: nat, j: Job)
    requires Find(store, id) == Some(k) && j.id == id
    ensures Find(store[k := j], id) == Some(k)
  {
    var r := store[k := j];
    assert forall m :: 0 <= m < k ==> r[m] == store[m];
    assert r[k].id == id;
  }

  /** `get_deployment_status`: a copy of the job, or 404. */
  function StatusOf(store: Store, id: string): (r: Option<Job>)
    ensures r.Some? <==> exists k :: 0 <= k < |store| && store[k].id == id
    ensures r.Some? ==> r.value in store && r.value.id == id
  {
    match Find(store, id)
    case Some(k) => Some(store[k])
    case None => None
  }

  /** The listing's sort key: the start time, compared as a string. */
  function StartedKey(j: Job): Key {
    Key(0, j.startedAt)
  }

  /** `list_deployments`: every job, newest start first, jobs that started
      at the same instant in insertion order; the count is the store's size. */
  function ListJobs(store: Store): (r: seq<Job>)
    ensures multiset(r) == multiset(store) && |r| == |store|
    ensures forall a, b :: 0 <= a < b < |r| ==> !StrLt(r[a].startedAt, r[b].startedAt)
  {
    var r := Sort(store, StartedKey, true);
    assert |r| == |multiset(r)| == |multiset(store)| == |store|;
    r
  }

  /** Jobs with equal start times keep their order in the listing. */
  lemma ListJobsStable(store: Store, started: string)
    ensures Ties(ListJobs(store), StartedKey, Key(0, started)) == Ties(store, StartedKey, Key(0, started))
  {
    SortStable(store, StartedKey, true, Key(0, started));
  }

  /** The answers of `cancel_deployment`. */
  datatype CancelResponse =
    | NotFound404
    | NotCancellable400(status: JobStatus)
    | CancelledOk(job: Job)

  /** `cancel_deployment` over the store: the answer and the new store. */
  function CancelRequest(store: Store, id: string, now: string): (r: (CancelResponse, Store))
    requires forall k :: 0 <= k < |store| ==> WellFormed(store[k])
    ensures r.0.NotFound404? <==> StatusOf(store, id).None?
    ensures r.0.NotCancellable400? <==> StatusOf(store, id).Some? && !InProgress(StatusOf(store, id).value.status)
    ensures !r.0.CancelledOk? ==> r.1 == store
    ensures r.0.CancelledOk? ==> && |r.1| == |store| && r.0.job.cancelled && r.0.job.status == Cancelled
                                 && StatusOf(r.1, id) == Some(r.0.job)
                                 && StatusOf(store, id).Some?
                                 && r.0.job == Cancel(StatusOf(store, id).value, now).value
                                 && forall k :: 0 <= k < |store| && store[k].id != id ==> r.1[k] == store[k]
  {
    match Find(store, id)
    case None => (NotFound404, store)
    case Some(k) =>
      match Cancel(store[k], now)
      case Err(_) => (NotCancellable400(store[k].status), store)
      case Ok(c) =>
        var r := store[k := c];
        FindAfterUpdate(store, id, k, c);
        (CancelledOk(c), r)
  }
}

=== FILE: json.dfy ===
/** JSON-shaped values as the application receives them from request bodies
    and configuration dictionaries, with Python's truthiness and `dict.get`. */
module Json {
  import opened Base

  /** A decoded JSON value. Objects keep their entries in order; their keys
      are taken to be distinct, as after Python's `json` decoding, where a
      repeated key keeps only its last value. */
  datatype Value =
    | Null
    | Bool(b: bool)
    | Int(i: int)
    | Str(s: string)
    | List(items: seq<Value>)
    | Object(entries: seq<Entry>)

  datatype Entry = Entry(key: string, val: Value)

  /** Python's `bool(v)`. */
  predicate IsTruthy(v: Value) {
    match v
    case Null => false
    case Bool(b) => b
    case Int(i) => i != 0
    case Str(s) => s != ""
    case List(items) => |items| > 0
    case Object(entries) => |entries| > 0
  }

  /** The keys of an object's entries, in order. */
  function Keys(entries: seq<Entry>): (r: seq<string>)
    ensures |r| == |entries|
    ensures forall i :: 0 <= i < |entries| ==> r[i] == entries[i].key
  {
    if |entries| == 0 then [] else [entries[0].key] + Keys(entries[1..])
  }

  /** `key in d` for a dictionary given by its entries. */
  predicate HasKey(entries: seq<Entry>, key: string) {
    exists i :: 0 <= i < |entries| && entries[i].key == key
  }

  /** `d.get(key)`: the value stored under `key`, or `None`. Keys of a decoded
      object are distinct, so the first entry with the key is the one. */
  function Lookup(entries: seq<Entry>, key: string): (r: Option<Value>)
    ensures r.Some? <==> HasKey(entries, key)
    ensures r.Some? ==> exists i :: 0 <= i < |entries| && entries[i] == Entry(key, r.value)
  {
    if |entries| == 0 then None
    else if entries[0].key == key then
      Some(entries[0].val)
    else
      var r := Lookup(entries[1..], key);
      assert HasKey(entries, key) ==> HasKey(entries[1..], key) by {
        if HasKey(entries, key) {
          var i :| 0 <= i < |entries| && entries[i].key == key;
          assert entries[1..][i - 1].key == key;
        }
      }
      assert r.Some? ==> HasKey(entries, key) by {
        if r.Some? {
          var i :| 0 <= i < |entries[1..]| && entries[1..][i].key == key;
          assert entries[i + 1].key == key;
        }
      }
      r
  }

  /** `d.get(key)` on a value that is known to be a dict, `None` standing for
      Python's `None` as well as a missing key. */
  function Get(v: Value, key: string): (r: Value)
    requires v.Object?
    ensures !HasKey(v.entries, key) ==> r == Null
    ensures HasKey(v.entries, key) ==> exists i :: 0 <= i < |v.entries| && v.entries[i] == Entry(key, r)
  {
    match Lookup(v.entries, key)
    case None => Null
    case Some(x) => x
  }
}

=== FILE: listings.dfy ===
/** The orderings applied to metadata listings: `sort_by_owner` (the current
    user's items first, then by name) and the SQL-warehouse state sort. */
module Listings {
  import opened Base
  import opened Sorting

  /** A listed item as the handlers build it: its name and its owner
      (`None` when the platform reports none). */
  datatype Item = Item(name: string, owner: Option<string>)

  /** `(item.get('owner') or '').lower() == current_user.lower()` */
  predicate Owned(it: Item, user: string) {
    Lower(it.owner.GetOr("")) == Lower(user)
  }

  /** The sort key `sort_by_owner` uses: the lower-cased name alone when the
      user is unknown, otherwise `(0 if owned else 1, lower-cased name)`. */
  function OwnerKey(user: Option<string>): Item -> Key {
    if !Truthy(user) then (it: Item) => Key(0, Lower(it.name))
    else
      var u := user.value;
      (it: Item) => Key(if Owned(it, u) then 0 else 1, Lower(it.name))
  }

  /** `sort_by_owner`: a permutation of the items in which, for a known user,
      every owned item precedes every other one, and items of the same group
      are in case-insensitive name order. */
  function SortByOwner(items: seq<Item>, user: Option<string>): (r: seq<Item>)
    ensures multiset(r) == multiset(items)
    ensures Truthy(user) ==>
      forall i, j :: 0 <= i < j < |r| && Owned(r[j], user.value) ==> Owned(r[i], user.value)
    ensures forall i, j ::
              0 <= i < j < |r| && (!Truthy(user) || Owned(r[i], user.value) == Owned(r[j], user.value))
              ==> !StrLt(Lower(r[j].name), Lower(r[i].name))
  {
    Sort(items, OwnerKey(user), false)
  }

  /** Items in the same group whose names agree up to case keep their order. */
  lemma SortByOwnerStable(items: seq<Item>, user: Option<string>, k: Key)
    ensures Ties(SortByOwner(items, user), OwnerKey(user), k) == Ties(items, OwnerKey(user), k)
  {
    SortStable(items, OwnerKey(user), false, k);
  }

  /** Sorting by owner twice is sorting once. */
  lemma SortByOwnerIdempotent(items: seq<Item>, user: Option<string>)
    ensures SortByOwner(SortByOwner(items, user), user) == SortByOwner(items, user)
  {
    SortIdempotent(items, OwnerKey(user), false);
  }

  /** For example, with user `me`, `[b(me), a(me), z(other)]`
      becomes `[a, b, z]`. */
  lemma SortByOwnerExample()
    ensures SortByOwner([Item("b", Some("me")), Item("a", Some("me")), Item("z", Some("other"))], Some("me"))
      == [Item("a", Some("me")), Item("b", Some("me")), Item("z", Some("other"))]
  {
    ExampleKeys();
    SortExampleSteps(Item("a", Some("me")), Item("b", Some("me")), Item("z", Some("other")), OwnerKey(Some("me")));
  }

  /** The insertion steps of the example, for any items with its keys. */
  lemma SortExampleSteps<T>(a: T, b: T, z: T, key: T -> Key)
    requires key(a) == Key(0, "a") && key(b) == Key(0, "b") && key(z) == Key(1, "z")
    ensures Sort([b, a, z], key, false) == [a, b, z]
  {
    assert Sort([z], key, false) == [z];
    assert Sort([a, z], key, false) == [a, z] by {
      assert [a, z][1..] == [z];
    }
    assert Insert(b, [z], key, false) == [b, z];
    assert Insert(b, [a, z], key, false) == [a, b, z] by {
      assert StrLt("a", "b");
      assert [a, z][1..] == [z];
    }
    assert [b, a, z][1..] == [a, z];
  }

  lemma ExampleKeys()
    ensures OwnerKey(Some("me"))(Item("a", Some("me"))) == Key(0, "a")
    ensures OwnerKey(Some("me"))(Item("b", Some("me"))) == Key(0, "b")
    ensures OwnerKey(Some("me"))(Item("z", Some("other"))) == Key(1, "z")
  {
    assert Lower("me") == "me";
    assert Lower("other")[0] == 'o';
    assert Lower("a") == "a" && Lower("b") == "b" && Lower("z") == "z";
  }

  /** A SQL warehouse as listed: its name and its state, if any. */
  datatype Warehouse = Warehouse(name: string, state: Option<string>)

  /** The `state_priority` table, with 99 for any other or missing state. */
  function StatePriority(state: Option<string>): int {
    match state
    case Some("RUNNING") => 0
    case Some("STARTING") => 1
    case Some("STOPPING") => 2
    case Some("STOPPED") => 3
    case Some("DELETED") => 4
    case Some("DELETING") => 5
    case _ => 99
  }

  function WarehouseKey(w: Warehouse): Key {
    Key(StatePriority(w.state), w.name)
  }

  /** The warehouse listing order: by state priority, then by name with
      case-sensitive comparison. */
  function SortWarehouses(ws: seq<Warehouse>): (r: seq<Warehouse>)
    ensures multiset(r) == multiset(ws)
    ensures forall i, j :: 0 <= i < j < |r| ==> StatePriority(r[i].state) <= StatePriority(r[j].state)
    ensures forall i, j ::
              0 <= i < j < |r| && StatePriority(r[i].state) == StatePriority(r[j].state)
              ==> !StrLt(r[j].name, r[i].name)
  {
    Sort(ws, WarehouseKey, false)
  }

  /** Running warehouses are listed before all others, and stopped ones after
      every warehouse that is running, starting or stopping. */
  lemma RunningWarehousesFirst(ws: seq<Warehouse>)
    ensures var r := SortWarehouses(ws);
      (forall i, j :: 0 <= i < j < |r| && r[j].state == Some("RUNNING") ==> r[i].state == Some("RUNNING"))
      && (forall i, j :: 0 <= i < j < |r| && r[i].state == Some("STOPPED") ==>
            r[j].state !in {Some("RUNNING"), Some("STARTING"), Some("STOPPING")})
  {
  }
}

=== FILE: prompts.dfy ===
/** The prompt-registry helpers: the short name shown for a prompt, the
    version list built from the `PromptVersionCount` tag, and the choice of
    which version of a template to load from a version or an alias. */
module Prompts {
  import opened Base
  import opened PyInt

  /** `full_name.split('.')[-1] if '.' in full_name else full_name`: the text
      after the last dot (the whole name when it has none). */
  function ShortName(full: string): (r: string)
    ensures '.' !in r
    ensures EndsWith(full, r)
    ensures r == full || full[|full| - |r| - 1] == '.'
    ensures '.' !in full ==> r == full
    decreases |full|
  {
    if |full| == 0 then ""
    else if full[|full| - 1] == '.' then ""
    else
      var init := full[..|full| - 1];
      var r := ShortName(init) + [full[|full| - 1]];
      assert full == init + [full[|full| - 1]];
      r
  }

  /** The short name of `catalog.schema.name` is `name`: a qualifier ending
      in a dot is dropped whatever it contains. */
  lemma {:induction false} ShortNameAfterDot(qualifier: string, name: string)
    requires '.' !in name
    ensures ShortName(qualifier + "." + name) == name
    decreases |name|
  {
    var full := qualifier + "." + name;
    if |name| == 0 {
      assert full[|full| - 1] == '.';
    } else {
      var init := name[..|name| - 1];
      ShortNameAfterDot(qualifier, init);
      assert full[..|full| - 1] == qualifier + "." + init;
      assert name == init + [name[|name| - 1]];
    }
  }

  /** The listing's version count: the `PromptVersionCount` tag (default
      `'1'`) read with `int()`, or 1 when that raises. */
  function ListingVersionCount(tags: map<string, string>): (vc: int)
    ensures "PromptVersionCount" !in tags ==> vc == 1
    ensures "PromptVersionCount" in tags && ParseInt(tags["PromptVersionCount"]).Some? ==>
      vc == ParseInt(tags["PromptVersionCount"]).value
    ensures "PromptVersionCount" in tags && ParseInt(tags["PromptVersionCount"]).None? ==> vc == 1
  {
    var text := if "PromptVersionCount" in tags then tags["PromptVersionCount"] else "1";
    match ParseInt(text)
    case Some(n) => n
    case None => 1
  }

  /** `[str(v) for v in range(vc, 0, -1)]`: one entry per version, newest first. */
  function VersionList(vc: int): (r: seq<string>)
    ensures |r| == if vc > 0 then vc else 0
    ensures forall i :: 0 <= i < |r| ==> r[i] == DecimalString(vc - i)
    decreases if vc > 0 then vc else 0
  {
    if vc <= 0 then [] else [DecimalString(vc)] + VersionList(vc - 1)
  }

  /** Every listed version reads back as the number it stands for, so the list
      counts down from `vc` to 1 without gaps or repeats. */
  lemma VersionListCountsDown(vc: int)
    ensures forall i :: 0 <= i < |VersionList(vc)| ==> ParseInt(VersionList(vc)[i]) == Some(vc - i)
    ensures forall i, j :: 0 <= i < j < |VersionList(vc)| ==> VersionList(vc)[i] != VersionList(vc)[j]
  {
    var r := VersionList(vc);
    forall i | 0 <= i < |r|
      ensures ParseInt(r[i]) == Some(vc - i)
    {
      ParseDecimalRoundTrip(vc - i);
    }
  }

  /** `str(version_count) if version_count > 0 else '1'` */
  function LatestVersion(vc: int): (r: string)
    ensures vc > 0 ==> ParseInt(r) == Some(vc)
    ensures vc <= 0 ==> r == "1"
  {
    ParseDecimalRoundTrip(vc);
    if vc > 0 then DecimalString(vc) else "1"
  }

  /** The latest version is the head of the version list whenever that list
      is non-empty; an empty list still reports version `'1'`. */
  lemma LatestHeadsVersionList(vc: int)
    ensures |VersionList(vc)| > 0 ==> LatestVersion(vc) == VersionList(vc)[0]
    ensures |VersionList(vc)| == 0 ==> LatestVersion(vc) == "1"
  {
  }

  /** One prompt of the listing. */
  datatype PromptEntry = PromptEntry(
    name: string,
    fullName: string,
    latestVersion: string,
    versions: seq<string>)

  /** The entry the listing builds for a prompt from its full name and tags. */
  function ListPrompt(full: string, tags: map<string, string>): (r: PromptEntry)
    ensures r.fullName == full && r.name == ShortName(full)
    ensures |r.versions| == 0 <==> ListingVersionCount(tags) <= 0
    ensures |r.versions| > 0 ==> r.latestVersion == r.versions[0]
  {
    var vc := ListingVersionCount(tags);
    LatestHeadsVersionList(vc);
    PromptEntry(ShortName(full), full, LatestVersion(vc), VersionList(vc))
  }

  /** The listed versions read back as the count, the count minus one, and
      so on down to 1. */
  lemma ListPromptCountsDown(full: string, tags: map<string, string>, i: int)
    requires 0 <= i < |ListPrompt(full, tags).versions|
    ensures ParseInt(ListPrompt(full, tags).versions[i]) == Some(ListingVersionCount(tags) - i)
  {
    VersionListCountsDown(ListingVersionCount(tags));
  }

  /** A prompt whose tag holds `str(n)` lists exactly `n` versions and `str(n)`
      as its latest one. */
  lemma ListPromptFromCount(full: string, tags: map<string, string>, n: int)
    requires n > 0 && "PromptVersionCount" in tags && tags["PromptVersionCount"] == DecimalString(n)
    ensures |ListPrompt(full, tags).versions| == n
    ensures ListPrompt(full, tags).latestVersion == DecimalString(n)
  {
    ParseDecimalRoundTrip(n);
  }

  /** A prompt without the tag, or with a tag `int()` rejects, lists the
      single version `'1'`. */
  lemma ListPromptDefaultsToOne(full: string, tags: map<string, string>)
    requires "PromptVersionCount" !in tags || ParseInt(tags["PromptVersionCount"]).None?
    ensures ListPrompt(full, tags).versions == ["1"]
    ensures ListPrompt(full, tags).latestVersion == "1"
  {
    assert DecimalString(1) == "1";
  }

  /** An entry of a template's `tags` list: its `key` and its `value`, if any. */
  datatype Tag = Tag(key: string, value: Option<string>)

  /** The template's version count: the first `PromptVersionCount` tag, read
      with `int()` (its value defaulting to `'1'`), or 1 when that raises;
      1 when no tag has that key. Later tags with the key are never read. */
  function TemplateVersionCount(tags: seq<Tag>): (vc: int)
    ensures (forall i :: 0 <= i < |tags| ==> tags[i].key != "PromptVersionCount") ==> vc == 1
    ensures forall i :: 0 <= i < |tags| && tags[i].key == "PromptVersionCount"
                        && (forall j :: 0 <= j < i ==> tags[j].key != "PromptVersionCount")
                        ==> vc == ParseInt(tags[i].value.GetOr("1")).GetOr(1)
  {
    if |tags| == 0 then 1
    else if tags[0].key == "PromptVersionCount" then ParseInt(tags[0].value.GetOr("1")).GetOr(1)
    else
      var vc := TemplateVersionCount(tags[1..]);
      assert forall i :: 1 <= i < |tags| ==> tags[i] == tags[1..][i - 1];
      vc
  }

  /** An entry of a template's `aliases` list; a missing field is `''`. */
  datatype AliasEntry = AliasEntry(alias: string, version: string)

  predicate Usable(a: AliasEntry) {
    a.alias != "" && a.version != ""
  }

  /** `alias_version_map`: every entry with a non-empty alias and version,
      a later entry overwriting an earlier one with the same alias. */
  function AliasMap(entries: seq<AliasEntry>): (m: map<string, string>)
    ensures forall k :: k in m <==> exists i :: 0 <= i < |entries| && Usable(entries[i]) && entries[i].alias == k
  {
    if |entries| == 0 then map[]
    else
      var init := entries[..|entries| - 1];
      var last := entries[|entries| - 1];
      var m := AliasMap(init);
      assert forall i :: 0 <= i < |init| ==> init[i] == entries[i];
      if Usable(last) then m[last.alias := last.version] else m
  }

  /** The last usable entry for an alias decides its version. */
  lemma {:induction false} AliasMapLastWins(entries: seq<AliasEntry>, i: int)
    requires 0 <= i < |entries| && Usable(entries[i])
    requires forall j :: i < j < |entries| && Usable(entries[j]) ==> entries[j].alias != entries[i].alias
    ensures entries[i].alias in AliasMap(entries)
    ensures AliasMap(entries)[entries[i].alias] == entries[i].version
    decreases |entries|
  {
    var init := entries[..|entries| - 1];
    var last := entries[|entries| - 1];
    if i < |entries| - 1 {
      assert init[i] == entries[i];
      AliasMapLastWins(init, i);
    }
  }

  /** Which template version to load, or why none is. */
  datatype Selection =
    | Load(version: int)
    | AliasNotFound   // 404 with `alias_not_found`
    | BadNumber       // `int()` raised; the handler answers 500

  /** The choice of the template version: an explicit `version` wins, then an
      alias present in the alias map, then the latest version for `latest` or
      no alias; `champion` and `default` missing from the map are a 404, any
      other unknown alias falls back to the latest version, and so does a
      choice of version 0. */
  function SelectVersion(version: Option<string>, alias: Option<string>, vc: int,
                         aliases: map<string, string>): (r: Selection)
    ensures r.AliasNotFound? <==>
      !Truthy(version) && alias.Some? && alias.value in {"champion", "default"} && alias.value !in aliases
    ensures r.BadNumber? <==>
      || (Truthy(version) && ParseInt(version.value).None?)
      || (!Truthy(version) && Truthy(alias) && alias.value in aliases && ParseInt(aliases[alias.value]).None?)
    ensures r.Load? ==> r.version == vc || r.version != 0
    ensures Truthy(version) && ParseInt(version.value).Some? && ParseInt(version.value).value != 0 ==>
      r == Load(ParseInt(version.value).value)
    ensures (&& !Truthy(version) && (alias.None? || alias.value == "" || alias.value == "latest")
             && (alias.None? || alias.value !in aliases)) ==> r == Load(vc)
  {
    var target: Result<Option<int>, Selection> :=
      if Truthy(version) then
        match ParseInt(version.value)
        case Some(n) => Ok(Some(n))
        case None => Err(BadNumber)
      else if Truthy(alias) && alias.value in aliases then
        match ParseInt(aliases[alias.value])
        case Some(n) => Ok(Some(n))
        case None => Err(BadNumber)
      else if alias == Some("latest") || !Truthy(alias) then Ok(Some(vc))
      else if alias.value in {"champion", "default"} then Err(AliasNotFound)
      else Ok(None);
    match target
    case Err(e) => e
    case Ok(t) => if t.None? || t.value == 0 then Load(vc) else Load(t.value)
  }

  /** An alias that is neither in the map nor one of `latest`, `champion` and
      `default` is not an error: the latest version is loaded. */
  lemma UnknownAliasLoadsLatest(alias: string, vc: int, aliases: map<string, string>)
    requires alias != "" && alias !in aliases && alias !in {"latest", "champion", "default"}
    ensures SelectVersion(None, Some(alias), vc, aliases) == Load(vc)
  {
  }

  /** An alias found in the map loads the version it names. */
  lemma MappedAliasLoadsItsVersion(alias: string, vc: int, entries: seq<AliasEntry>, i: int)
    requires 0 <= i < |entries| && Usable(entries[i]) && entries[i].alias == alias
    requires forall j :: i < j < |entries| && Usable(entries[j]) ==> entries[j].alias != alias
    requires ParseInt(entries[i].version).Some? && ParseInt(entries[i].version).value != 0
    ensures SelectVersion(None, Some(alias), vc, AliasMap(entries)) == Load(ParseInt(entries[i].version).value)
  {
    AliasMapLastWins(entries, i);
  }

  /** An explicit version `'0'` is falsy once read and falls back to the latest. */
  lemma ZeroVersionLoadsLatest(v: string, alias: Option<string>, vc: int, aliases: map<string, string>)
    requires v == "0"
    ensures SelectVersion(Some(v), alias, vc, aliases) == Load(vc)
  {
    ParseDecimalRoundTrip(0);
    assert DecimalString(0) == "0";
  }
}

=== FILE: proxy.dfy ===
/** The Databricks API proxy of app.py (`proxy_databricks`): which token and
    host it uses, the order of its rejections, the target URL, and how an
    upstream scope error is turned into an explanatory response
    (`_get_required_scopes_for_path`). */
module Proxy {
  import opened Base
  import opened Json
  import opened Credentials

  /** `OAUTH_SCOPES`, the scopes requested during the OAuth flow. */
  const OAuthScopes: seq<string> := [
    "sql",
    "dashboards.genie",
    "files.files",
    "serving.serving-endpoints",
    "vectorsearch.vector-search-indexes",
    "vectorsearch.vector-search-endpoints",
    "offline_access"
  ]

  /** One row of the path-to-scope table: any of the patterns selects the scopes. */
  datatype ScopeRule = ScopeRule(patterns: seq<string>, scopes: seq<string>)

  const ScopeTable: seq<ScopeRule> := [
    ScopeRule(["/sql/", "/warehouses"], ["sql"]),
    ScopeRule(["/serving-endpoints", "/endpoints"], ["serving.serving-endpoints"]),
    ScopeRule(["/vector-search", "/indexes"], ["vectorsearch.vector-search-indexes", "vectorsearch.vector-search-endpoints"]),
    ScopeRule(["/genie", "/dashboards"], ["dashboards.genie"]),
    ScopeRule(["/files", "/volumes", "/dbfs"], ["files.files"]),
    ScopeRule(["/catalog", "/schemas", "/tables", "/functions"], ["sql"]),
    ScopeRule(["/scim", "/users", "/me"], ["iam.current-user:read"]),
    ScopeRule(["/clusters"], ["clusters.clusters"]),
    ScopeRule(["/jobs"], ["jobs.jobs"]),
    ScopeRule(["/mlflow", "/experiments", "/models", "/registered-models"], ["mlflow.experiments", "mlflow.registered-models"]),
    ScopeRule(["/workspace"], ["workspace.workspace"])
  ]

  const DefaultScopes: seq<string> := ["sql", "serving.serving-endpoints", "files.files"]

  /** `any(pattern in path_lower for pattern in patterns)` */
  predicate RuleMatches(rule: ScopeRule, lowered: string) {
    exists k :: 0 <= k < |rule.patterns| && Contains(lowered, rule.patterns[k])
  }

  function AnyPatternIn(patterns: seq<string>, lowered: string): (r: bool)
    ensures r <==> exists k :: 0 <= k < |patterns| && Contains(lowered, patterns[k])
  {
    if |patterns| == 0 then false
    else if Contains(lowered, patterns[0]) then true
    else
      var r := AnyPatternIn(patterns[1..], lowered);
      assert forall k :: 1 <= k < |patterns| ==> patterns[k] == patterns[1..][k - 1];
      r
  }

  /** The first rule, from position `from` on, that matches. */
  function FirstMatch(rules: seq<ScopeRule>, lowered: string, from: nat): (r: Option<nat>)
    requires from <= |rules|
    ensures r.Some? ==>
              && from <= r.value < |rules|
              && RuleMatches(rules[r.value], lowered)
              && forall j :: from <= j < r.value ==> !RuleMatches(rules[j], lowered)
    ensures r.None? ==> forall j :: from <= j < |rules| ==> !RuleMatches(rules[j], lowered)
    decreases |rules| - from
  {
    if from == |rules| then None
    else if AnyPatternIn(rules[from].patterns, lowered) then Some(from)
    else FirstMatch(rules, lowered, from + 1)
  }

  /** `_get_required_scopes_for_path`: the scopes of the first rule, in table
      order, that has a pattern inside the lower-cased path; the default
      scopes when none has. Never empty. */
  function RequiredScopes(path: string): (r: seq<string>)
    ensures |r| > 0
    ensures forall i ::
              (&& 0 <= i < |ScopeTable|
               && RuleMatches(ScopeTable[i], Lower(path))
               && forall j :: 0 <= j < i ==> !RuleMatches(ScopeTable[j], Lower(path)))
              ==> r == ScopeTable[i].scopes
    ensures (forall i :: 0 <= i < |ScopeTable| ==> !RuleMatches(ScopeTable[i], Lower(path))) ==> r == DefaultScopes
  {
    match FirstMatch(ScopeTable, Lower(path), 0)
    case Some(i) => ScopeTable[i].scopes
    case None => DefaultScopes
  }

  /** A substring's characters all occur in the string. */
  lemma ContainedCharsOccur(s: string, p: string, k: nat)
    requires Contains(s, p) && k < |p|
    ensures p[k] in s
  {
    ContainsIffOccurs(s, p);
    var i :| OccursAt(s, p, i);
    assert s[i..i + |p|][k] == s[i + k];
  }

  /** A path that mentions `/endpoints` but neither `/sql/` nor `/warehouses`
      gets the serving scope, even when it also mentions `/vector-search`:
      the first matching rule wins, not the most specific one. */
  lemma EndpointsRuleComesFirst(path: string)
    requires Contains(Lower(path), "/endpoints")
    requires !Contains(Lower(path), "/sql/") && !Contains(Lower(path), "/warehouses")
    ensures RequiredScopes(path) == ["serving.serving-endpoints"]
  {
    var lowered := Lower(path);
    assert !RuleMatches(ScopeTable[0], lowered);
    assert RuleMatches(ScopeTable[1], lowered) by {
      assert Contains(lowered, ScopeTable[1].patterns[1]);
    }
  }

  /** A path without `q` or `w` cannot contain `/sql/` or `/warehouses`. */
  lemma NoSqlOrWarehouses(p: string)
    requires 'q' !in p && 'w' !in p
    ensures !Contains(p, "/sql/") && !Contains(p, "/warehouses")
  {
    if Contains(p, "/sql/") {
      ContainedCharsOccur(p, "/sql/", 2);
    }
    if Contains(p, "/warehouses") {
      ContainedCharsOccur(p, "/warehouses", 1);
    }
  }

  /** `str.lower()` leaves a string without upper-case letters alone. */
  lemma LowerOfLowercase(s: string)
    requires forall i :: 0 <= i < |s| ==> !('A' <= s[i] <= 'Z')
    ensures Lower(s) == s
  {
  }

  lemma VectorSearchEndpointsIsLowercase(p: string)
    requires p == "api/2.0/vector-search/endpoints"
    ensures Lower(p) == p
  {
    LowerOfLowercase(p);
  }

  lemma VectorSearchEndpointsLacksQW(p: string)
    requires p == "api/2.0/vector-search/endpoints"
    ensures 'q' !in p && 'w' !in p
  {
  }

  lemma VectorSearchEndpointsHasEndpoints(p: string)
    requires p == "api/2.0/vector-search/endpoints"
    ensures Contains(p, "/endpoints")
  {
    assert OccursAt(p, "/endpoints", 21);
    ContainsIffOccurs(p, "/endpoints");
  }

  /** The vector-search endpoints API asks for the serving scope. */
  lemma VectorSearchEndpointsExample(p: string)
    requires p == "api/2.0/vector-search/endpoints"
    ensures RequiredScopes(p) == ["serving.serving-endpoints"]
  {
    VectorSearchEndpointsIsLowercase(p);
    VectorSearchEndpointsLacksQW(p);
    VectorSearchEndpointsHasEndpoints(p);
    NoSqlOrWarehouses(p);
    EndpointsRuleComesFirst(p);
  }

  /** The token the proxy uses: a `Bearer` header first, before even the
      session token, and otherwise whatever the token resolver finds. */
  function ProxyToken(req: Request, amb: Ambient): (r: Found<TokenSource>)
    ensures BearerToken(req.authorization).Some? ==> r == Found(BearerToken(req.authorization).value, Manual)
    ensures BearerToken(req.authorization).None? ==> r == ResolveToken(req, amb)
  {
    match BearerToken(req.authorization)
    case Some(t) => Found(t, Manual)
    case None => ResolveToken(req, amb)
  }

  /** Without a session token the proxy agrees with the resolver. */
  lemma ProxyTokenMatchesResolverWithoutSession(req: Request, amb: Ambient)
    requires req.sessionToken.None?
    ensures ProxyToken(req, amb) == ResolveToken(req, amb)
  {
  }

  /** With both a session token and a `Bearer` header the proxy uses the
      header while the resolver reports the session token. */
  lemma BearerBeatsSessionInProxy(req: Request, amb: Ambient, t: string)
    requires req.sessionToken.Some? && req.authorization == Some(BearerPrefix + t)
    ensures ProxyToken(req, amb) == Found(t, Manual)
    ensures ResolveToken(req, amb).source == OAuth
  {
    assert (BearerPrefix + t)[..|BearerPrefix|] == BearerPrefix;
    assert (BearerPrefix + t)[|BearerPrefix|..] == t;
  }

  /** `f"{host}/{path}"` followed by `?query` when the query is non-empty. */
  function TargetUrl(host: string, path: string, query: string): (u: string)
    ensures StartsWith(u, host + "/" + path)
    ensures |u| == |host| + 1 + |path| + (if query == "" then 0 else 1 + |query|)
    ensures query != "" ==> u[|host| + 1 + |path|..] == "?" + query
  {
    var base := host + "/" + path;
    assert (base + "?" + query)[..|base|] == base;
    if query == "" then base else base + "?" + query
  }

  /** The part of a URL tail before the first `?`, and the part after it. */
  function SplitQuery(s: string): (string, string) {
    if |s| == 0 then ("", "")
    else if s[0] == '?' then ("", s[1..])
    else
      var (p, q) := SplitQuery(s[1..]);
      ([s[0]] + p, q)
  }

  lemma {:induction false} SplitQueryAt(path: string, rest: string)
    requires '?' !in path
    requires rest == "" || rest[0] == '?'
    ensures SplitQuery(path + rest) == (path, if rest == "" then "" else rest[1..])
    decreases |path|
  {
    if |path| == 0 {
      assert path + rest == rest;
    } else {
      assert (path + rest)[1..] == path[1..] + rest;
      assert path[0] != '?';
      SplitQueryAt(path[1..], rest);
      assert [path[0]] + path[1..] == path;
    }
  }

  /** The path and query can be read back from the target URL, provided the
      path itself has no `?`. */
  lemma TargetUrlRoundTrip(host: string, path: string, query: string)
    requires '?' !in path
    ensures var u := TargetUrl(host, path, query);
      u[..|host| + 1] == host + "/" && SplitQuery(u[|host| + 1..]) == (path, query)
  {
    var u := TargetUrl(host, path, query);
    var rest := if query == "" then "" else "?" + query;
    assert u == host + "/" + (path + rest);
    assert u[|host| + 1..] == path + rest;
    SplitQueryAt(path, rest);
  }

  /** The request the proxy sends upstream. */
  datatype Outbound = Outbound(url: string, authorization: string, contentType: string)

  /** The proxy's decision before any network traffic. */
  datatype Plan =
    | Unauthorized401
    | NoHost400
    | Forward(request: Outbound, tokenSource: TokenSource)

  /** Missing or empty token: 401, checked before the host; missing or empty
      host: 400; otherwise the request to forward, with a Bearer header and a
      JSON content type. */
  function PlanProxy(req: Request, amb: Ambient, path: string, query: string): (r: Plan)
    ensures var t := ProxyToken(req, amb);
      r.Unauthorized401? <==> t.NotFound? || t.value == ""
    ensures var t, h := ProxyToken(req, amb), ResolveHost(req, amb);
      r.NoHost400? <==> t.Found? && t.value != "" && (h.NotFound? || h.value == "")
    ensures r.Forward? ==>
      var t, h := ProxyToken(req, amb), ResolveHost(req, amb);
      t.Found? && h.Found? && r.tokenSource == t.source
      && r.request == Outbound(TargetUrl(h.value, path, query), "Bearer " + t.value, "application/json")
  {
    var t := ProxyToken(req, amb);
    if t.NotFound? || t.value == "" then Unauthorized401
    else
      var h := ResolveHost(req, amb);
      if h.NotFound? || h.value == "" then NoHost400
      else Forward(Outbound(TargetUrl(h.value, path, query), "Bearer " + t.value, "application/json"), t.source)
  }

  /** What came back from the upstream call: a `RequestException` with its
      text, or a reply whose body is `None` when it is not JSON. */
  datatype Upstream =
    | ConnectionError(message: string)
    | Reply(status: int, body: Option<Value>, contentType: Option<string>, content: string)

  /** The message of an upstream error body, `get('message', '') or
      get('error', '')`, when the body is a JSON object and the message is a
      string. Anything else makes the `try` around the scope check in
      `proxy_databricks` fall through to relaying the reply. */
  function ErrorMessage(body: Option<Value>): (r: Option<string>)
    ensures r.Some? ==> body.Some? && body.value.Object?
    ensures body.Some? && body.value.Object? ==>
              var m, e := FieldOrEmpty(body.value, "message"), FieldOrEmpty(body.value, "error");
              && (IsTruthy(m) ==> (r.Some? <==> m.Str?) && (r.Some? ==> m == Str(r.value)))
              && (!IsTruthy(m) ==> (r.Some? <==> e.Str?) && (r.Some? ==> e == Str(r.value)))
  {
    if body.None? || !body.value.Object? then None
    else
      var m := FieldOrEmpty(body.value, "message");
      var chosen := if IsTruthy(m) then m else FieldOrEmpty(body.value, "error");
      if chosen.Str? then Some(chosen.s) else None
  }

  /** `d.get(key, '')` */
  function FieldOrEmpty(d: Value, key: string): (r: Value)
    requires d.Object?
    ensures !HasKey(d.entries, key) ==> r == Str("")
    ensures HasKey(d.entries, key) ==> r == Get(d, key)
  {
    Lookup(d.entries, key).GetOr(Str(""))
  }

  /** `sep.join(parts)` */
  function Join(parts: seq<string>, sep: string): (r: string)
    ensures |parts| == 1 ==> r == parts[0]
    ensures |parts| > 1 ==> StartsWith(r, parts[0] + sep)
    decreases |parts|
  {
    if |parts| == 0 then ""
    else if |parts| == 1 then parts[0]
    else parts[0] + sep + Join(parts[1..], sep)
  }

  /** Every part occurs in the joined string. */
  lemma {:induction false} JoinNamesEveryPart(parts: seq<string>, sep: string, i: int)
    requires 0 <= i < |parts|
    ensures exists k :: OccursAt(Join(parts, sep), parts[i], k)
    decreases |parts|
  {
    var r := Join(parts, sep);
    if i == 0 {
      assert r[0..|parts[0]|] == parts[0];
      assert OccursAt(r, parts[i], 0);
    } else {
      JoinNamesEveryPart(parts[1..], sep, i - 1);
      var rest := Join(parts[1..], sep);
      var k :| OccursAt(rest, parts[1..][i - 1], k);
      var off := |parts[0]| + |sep|;
      assert r == parts[0] + sep + rest;
      assert r[off + k..off + k + |parts[i]|] == rest[k..k + |parts[i]|];
      assert OccursAt(r, parts[i], off + k);
    }
  }

  const HelpPrefix := "The OAuth token does not have the required scopes. This API requires one of: "
  const HelpSuffix := ". Please update the app's user_api_scopes in databricks.yml and redeploy."

  /** The `help` text of a scope denial, naming the scopes the path needs. */
  function ScopeHelp(scopes: seq<string>): string {
    HelpPrefix + Join(scopes, ", ") + HelpSuffix
  }

  /** What occurs in the middle part occurs in the whole. */
  lemma OccursInMiddle(pre: string, mid: string, post: string, p: string, k: int)
    requires OccursAt(mid, p, k)
    ensures Contains(pre + mid + post, p)
  {
    var h := pre + mid + post;
    assert h[|pre| + k..|pre| + k + |p|] == mid[k..k + |p|];
    assert OccursAt(h, p, |pre| + k);
    ContainsIffOccurs(h, p);
  }

  /** The help text names every scope the path needs. */
  lemma ScopeHelpNamesEveryScope(path: string, i: int)
    requires 0 <= i < |RequiredScopes(path)|
    ensures Contains(ScopeHelp(RequiredScopes(path)), RequiredScopes(path)[i])
  {
    var scopes := RequiredScopes(path);
    JoinNamesEveryPart(scopes, ", ", i);
    var k :| OccursAt(Join(scopes, ", "), scopes[i], k);
    OccursInMiddle(HelpPrefix, Join(scopes, ", "), HelpSuffix, scopes[i], k);
  }

  /** What the proxy answers. */
  datatype Response =
    | NoToken401
    | NoHost400Response
    | ScopeDenied(status: int, error: string, errorCode: Value, requiredScopes: seq<string>, configuredScopes: seq<string>,
                  help: string)
    | Relayed(status: int, content: string, contentType: string, tokenSource: TokenSource)
    | ConnectFailed502(error: string)

  /** A 401 or 403 whose message mentions `scope` is answered with the scopes
      the path needs, the scopes the app asks for and a help text naming the
      former; every other reply is
      relayed with its status, body and content type (JSON by default). */
  function Answer(path: string, tokenSource: TokenSource, up: Upstream): (r: Response)
    ensures up.ConnectionError? <==> r.ConnectFailed502?
    ensures up.ConnectionError? ==> r.error == "Failed to connect to Databricks: " + up.message
    ensures r.ScopeDenied? ==>
      up.Reply? && r.status == up.status && (up.status == 401 || up.status == 403)
      && Contains(Lower(r.error), "scope") && |r.requiredScopes| > 0 && r.configuredScopes == OAuthScopes
    ensures (&& up.Reply?
             && (up.status == 401 || up.status == 403)
             && ErrorMessage(up.body).Some?
             && Contains(Lower(ErrorMessage(up.body).value), "scope"))
            ==> r.ScopeDenied?
    ensures r.ScopeDenied? ==>
      && up.Reply? && up.body.Some? && up.body.value.Object?
      && ErrorMessage(up.body).Some? && r.error == ErrorMessage(up.body).value
      && r.errorCode == Lookup(up.body.value.entries, "error_code").GetOr(Null)
      && r.requiredScopes == RequiredScopes(path)
      && r.help == ScopeHelp(r.requiredScopes)
    ensures (&& up.Reply?
             && !((up.status == 401 || up.status == 403)
                  && ErrorMessage(up.body).Some?
                  && Contains(Lower(ErrorMessage(up.body).value), "scope")))
            ==> r.Relayed?
    ensures r.Relayed? ==>
              && up.Reply? && r.status == up.status && r.content == up.content
              && r.contentType == up.contentType.GetOr("application/json")
              && r.tokenSource == tokenSource
    ensures !r.NoToken401? && !r.NoHost400Response?
  {
    match up
    case ConnectionError(m) => ConnectFailed502("Failed to connect to Databricks: " + m)
    case Reply(status, body, contentType, content) =>
      var msg := ErrorMessage(body);
      if (status == 401 || status == 403) && msg.Some? && Contains(Lower(msg.value), "scope") then
        var scopes := RequiredScopes(path);
        ScopeDenied(status, msg.value, Lookup(body.value.entries, "error_code").GetOr(Null), scopes, OAuthScopes,
                    ScopeHelp(scopes))
      else Relayed(status, content, contentType.GetOr("application/json"), tokenSource)
  }

  /** `proxy_databricks`, with the upstream service as a parameter. */
  function ProxyDatabricks(req: Request, amb: Ambient, path: string, query: string, upstream: Outbound -> Upstream): (r: Response)
    ensures r.NoToken401? <==> PlanProxy(req, amb, path, query).Unauthorized401?
    ensures r.NoHost400Response? <==> PlanProxy(req, amb, path, query).NoHost400?
    ensures PlanProxy(req, amb, path, query).Forward? ==>
      var p := PlanProxy(req, amb, path, query);
      r == Answer(path, p.tokenSource, upstream(p.request))
  {
    match PlanProxy(req, amb, path, query)
    case Unauthorized401 => NoToken401
    case NoHost400 => NoHost400Response
    case Forward(request, source) => Answer(path, source, upstream(request))
  }

  /** A rejected request never depends on, and so never reaches, the upstream. */
  lemma RejectionIgnoresUpstream(req: Request, amb: Ambient, path: string, query: string, u1: Outbound -> Upstream, u2: Outbound -> Upstream)
    requires !PlanProxy(req, amb, path, query).Forward?
    ensures ProxyDatabricks(req, amb, path, query, u1) == ProxyDatabricks(req, amb, path, query, u2)
  {
  }

  /** A bare `Bearer ` header is rejected with 401 even when a session token
      exists, because the header is checked first. */
  lemma EmptyBearerIsUnauthorized(req: Request, amb: Ambient, path: string, query: string)
    requires req.authorization == Some("Bearer ")
    ensures PlanProxy(req, amb, path, query) == Unauthorized401
  {
    assert BearerToken(req.authorization) == Some("");
  }

  /** Only a 401 or a 403 can be turned into a scope denial: every other
      status is relayed with its body and content type. */
  lemma OtherStatusesAreRelayed(path: string, tokenSource: TokenSource, status: int, body: Option<Value>, contentType: Option<string>, content: string)
    requires status != 401 && status != 403
    ensures Answer(path, tokenSource, Reply(status, body, contentType, content))
         == Relayed(status, content, contentType.GetOr("application/json"), tokenSource)
  {
  }

  /** A 401 or 403 whose body carries a message mentioning `scope` in any
      case is denied with the message as the upstream wrote it and no
      error code. */
  lemma ScopeMessageIsDenied(path: string, tokenSource: TokenSource, status: int, msg: string, contentType: Option<string>, content: string)
    requires status == 401 || status == 403
    requires Contains(Lower(msg), "scope")
    ensures Answer(path, tokenSource, Reply(status, Some(Object([Entry("message", Str(msg))])), contentType, content))
         == ScopeDenied(status, msg, Null, RequiredScopes(path), OAuthScopes, ScopeHelp(RequiredScopes(path)))
  {
    var body := Object([Entry("message", Str(msg))]);
    assert FieldOrEmpty(body, "message") == Str(msg);
    assert ErrorMessage(Some(body)) == Some(msg);
    assert Lookup(body.entries, "error_code") == None;
  }
}

=== FILE: pyint.dfy ===
/** Python's `int(s)` on a string and `str(n)` on an integer, as the prompt
    helpers use them to read and write version numbers. */
module PyInt {
  import opened Base

  predicate IsDigit(c: char) {
    '0' <= c <= '9'
  }

  function DigitChar(d: nat): (c: char)
    requires d < 10
    ensures IsDigit(c)
  {
    ('0' as int + d) as char
  }

  /** Decimal digits, with single underscores allowed between two digits. */
  predicate WellFormedDigits(s: string) {
    && |s| > 0
    && IsDigit(s[0])
    && IsDigit(s[|s| - 1])
    && (forall i :: 0 <= i < |s| ==> IsDigit(s[i]) || s[i] == '_')
    && (forall i :: 0 <= i < |s| - 1 ==> !(s[i] == '_' && s[i + 1] == '_'))
  }

  /** The number the digits spell, underscores ignored. */
  function DigitsValue(s: string): nat
    decreases |s|
  {
    if |s| == 0 then 0
    else if IsDigit(s[|s| - 1]) then DigitsValue(s[..|s| - 1]) * 10 + (s[|s| - 1] as int - '0' as int)
    else DigitsValue(s[..|s| - 1])
  }

  /** `int(s)`: surrounding whitespace is ignored, one optional sign, then
      well-formed digits; anything else is a `ValueError` (`None`). */
  function ParseInt(s: string): (r: Option<int>)
    ensures r.Some? ==> |Strip(s)| > 0
    ensures r.Some? && Strip(s)[0] != '-' && Strip(s)[0] != '+' ==>
      WellFormedDigits(Strip(s)) && r.value == DigitsValue(Strip(s))
    ensures r.Some? && Strip(s)[0] == '-' ==> WellFormedDigits(Strip(s)[1..]) && r.value == -(DigitsValue(Strip(s)[1..]) as int)
    ensures r.Some? && Strip(s)[0] == '+' ==> WellFormedDigits(Strip(s)[1..]) && r.value == DigitsValue(Strip(s)[1..])
  {
    var t := Strip(s);
    if |t| > 0 && (t[0] == '-' || t[0] == '+') then
      var rest := t[1..];
      if WellFormedDigits(rest) then
        var v: int := DigitsValue(rest);
        Some(if t[0] == '-' then -v else v)
      else None
    else if WellFormedDigits(t) then Some(DigitsValue(t))
    else None
  }

  /** `int()` accepts exactly the stripped strings that are well-formed
      digits, with or without one leading sign. */
  lemma ParseIntAcceptsExactly(s: string)
    ensures ParseInt(s).Some? <==>
      || WellFormedDigits(Strip(s))
      || (|Strip(s)| > 0 && (Strip(s)[0] == '-' || Strip(s)[0] == '+') && WellFormedDigits(Strip(s)[1..]))
  {
  }

  /** `str(n)` for a non-negative `n`: its decimal digits, most significant first. */
  function NatString(n: nat): (s: string)
    ensures |s| > 0 && IsDigit(s[0]) && IsDigit(s[|s| - 1])
    ensures forall i :: 0 <= i < |s| ==> IsDigit(s[i])
    ensures n > 0 ==> s[0] != '0'
  {
    if n < 10 then [DigitChar(n)]
    else NatString(n / 10) + [DigitChar(n % 10)]
  }

  /** `str(n)` */
  function DecimalString(n: int): (s: string)
    ensures |s| > 0
    ensures n >= 0 ==> forall i :: 0 <= i < |s| ==> IsDigit(s[i])
    ensures n < 0 ==> s[0] == '-'
  {
    if n < 0 then "-" + NatString(-n) else NatString(n)
  }

  lemma {:induction false} NatStringValue(n: nat)
    ensures DigitsValue(NatString(n)) == n
    decreases n
  {
    var s := NatString(n);
    if n >= 10 {
      NatStringValue(n / 10);
      assert s[..|s| - 1] == NatString(n / 10);
    }
  }

  /** `int(str(n)) == n` for every integer. */
  lemma ParseDecimalRoundTrip(n: int)
    ensures ParseInt(DecimalString(n)) == Some(n)
  {
    var s := DecimalString(n);
    var digits := NatString(if n < 0 then -n else n);
    NatStringValue(if n < 0 then -n else n);
    assert WellFormedDigits(digits);
    StripUnchanged(s);
    if n < 0 {
      assert s[1..] == digits;
    }
  }

  /** The inverse direction holds for canonical spellings: a string without
      sign, whitespace, underscores or leading zeros is `str(int(s))`. */
  lemma {:induction false} CanonicalDigitsRoundTrip(s: string)
    requires |s| > 0 && forall i :: 0 <= i < |s| ==> IsDigit(s[i])
    requires |s| > 1 ==> s[0] != '0'
    ensures NatString(DigitsValue(s)) == s
    decreases |s|
  {
    var init := s[..|s| - 1];
    var d := s[|s| - 1] as int - '0' as int;
    if |s| > 1 {
      CanonicalDigitsRoundTrip(init);
      assert DigitsValue(init) > 0 by {
        NonZeroLeadingDigit(init);
      }
      assert DigitsValue(s) / 10 == DigitsValue(init);
      assert DigitChar(DigitsValue(s) % 10) == s[|s| - 1];
      assert s == init + [s[|s| - 1]];
    } else {
      assert DigitChar(d) == s[0];
    }
  }

  lemma {:induction false} NonZeroLeadingDigit(s: string)
    requires |s| > 0 && forall i :: 0 <= i < |s| ==> IsDigit(s[i])
    requires s[0] != '0'
    ensures DigitsValue(s) > 0
    decreases |s|
  {
    if |s| > 1 {
      NonZeroLeadingDigit(s[..|s| - 1]);
    }
  }

  lemma StripPaddedTen(s: string)
    requires s == " +1_0 "
    ensures Strip(s) == "+1_0"
  {
    assert LStrip(s) == s[1..];
    assert RStrip(s[1..]) == "+1_0";
  }

  lemma TenWithUnderscore(s: string)
    requires s == "1_0"
    ensures WellFormedDigits(s) && DigitsValue(s) == 10
  {
    var one, oneU := s[..1], s[..2];
    assert one[..0] == [] && oneU[..1] == one && s[..|s| - 1] == oneU;
    assert DigitsValue(one) == 1;
    assert DigitsValue(oneU) == 1;
  }

  /** Whitespace, a `+` sign and underscores are accepted: `int(" +1_0 ")` is 10. */
  lemma ParseIntExample(s: string)
    requires s == " +1_0 "
    ensures ParseInt(s) == Some(10)
  {
    StripPaddedTen(s);
    SignedParse(s, "1_0");
    TenWithUnderscore("1_0");
  }

  /** A stripped `+` followed by well-formed digits parses to their value. */
  lemma SignedParse(s: string, digits: string)
    requires Strip(s) == "+" + digits && WellFormedDigits(digits)
    ensures ParseInt(s) == Some(DigitsValue(digits))
  {
    assert Strip(s)[1..] == digits;
  }

  /** A doubled underscore is rejected. */
  lemma ParseIntRejectsDoubleUnderscore(s: string)
    requires s == "1__0"
    ensures ParseInt(s) == None
  {
    StripUnchanged(s);
    assert s[0] == '1' && s[1] == '_' && s[2] == '_';
    assert !WellFormedDigits(s);
    ParseIntAcceptsExactly(s);
  }
}

=== FILE: sorting.dfy ===
/** Python's `sorted(items, key=..., reverse=...)` for the tuple keys the
    application sorts by: a stable sort, where `reverse=True` flips the order
    of keys but keeps items with equal keys in their original order. */
module Sorting {

  /** Python's `<` on strings: lexicographic by code point. */
  predicate StrLt(a: string, b: string)
    decreases |a|
  {
    if |a| == 0 then |b| > 0
    else if |b| == 0 then false
    else if a[0] != b[0] then a[0] < b[0]
    else StrLt(a[1..], b[1..])
  }

  lemma {:induction false} StrLtIrreflexive(a: string)
    ensures !StrLt(a, a)
    decreases |a|
  {
    if |a| > 0 {
      StrLtIrreflexive(a[1..]);
    }
  }

  lemma {:induction false} StrLtTransitive(a: string, b: string, c: string)
    requires StrLt(a, b) && StrLt(b, c)
    ensures StrLt(a, c)
    decreases |a|
  {
    if |a| > 0 && a[0] == b[0] && b[0] == c[0] {
      StrLtTransitive(a[1..], b[1..], c[1..]);
    }
  }

  lemma {:induction false} StrLtTotal(a: string, b: string)
    ensures StrLt(a, b) || a == b || StrLt(b, a)
    decreases |a|
  {
    if |a| > 0 && |b| > 0 && a[0] == b[0] {
      StrLtTotal(a[1..], b[1..]);
      if a[1..] == b[1..] {
        assert a == [a[0]] + a[1..] && b == [b[0]] + b[1..];
      }
    }
  }

  /** A sort key `(rank, text)`, compared as a Python tuple. */
  datatype Key = Key(rank: int, text: string)

  predicate KeyLt(a: Key, b: Key) {
    a.rank < b.rank || (a.rank == b.rank && StrLt(a.text, b.text))
  }

  /** `a` must come strictly before `b` in the sorted output. */
  predicate Ahead(a: Key, b: Key, desc: bool) {
    if desc then KeyLt(b, a) else KeyLt(a, b)
  }

  lemma AheadIrreflexive(a: Key, desc: bool)
    ensures !Ahead(a, a, desc)
  {
    StrLtIrreflexive(a.text);
  }

  lemma AheadTransitive(a: Key, b: Key, c: Key, desc: bool)
    requires Ahead(a, b, desc) && Ahead(b, c, desc)
    ensures Ahead(a, c, desc)
  {
    if a.rank == b.rank == c.rank {
      if desc {
        StrLtTransitive(c.text, b.text, a.text);
      } else {
        StrLtTransitive(a.text, b.text, c.text);
      }
    }
  }

  lemma AheadTotal(a: Key, b: Key, desc: bool)
    ensures Ahead(a, b, desc) || a == b || Ahead(b, a, desc)
  {
    StrLtTotal(a.text, b.text);
  }

  lemma AheadAsymmetric(a: Key, b: Key, desc: bool)
    requires Ahead(a, b, desc)
    ensures !Ahead(b, a, desc)
  {
    if Ahead(b, a, desc) {
      AheadTransitive(a, b, a, desc);
      AheadIrreflexive(a, desc);
    }
  }

  /** No item is followed by one whose key must come before it. */
  predicate Sorted<T>(s: seq<T>, key: T -> Key, desc: bool) {
    forall i, j :: 0 <= i < j < |s| ==> !Ahead(key(s[j]), key(s[i]), desc)
  }

  /** The items of `s` whose key is `k`, in their order in `s`. */
  function Ties<T>(s: seq<T>, key: T -> Key, k: Key): seq<T> {
    if |s| == 0 then []
    else if key(s[0]) == k then [s[0]] + Ties(s[1..], key, k)
    else Ties(s[1..], key, k)
  }

  /** Puts `x` after every item whose key must come before it, and before the
      rest; an item with an equal key stays behind `x`. */
  function Insert<T>(x: T, s: seq<T>, key: T -> Key, desc: bool): (r: seq<T>)
    ensures multiset(r) == multiset(s) + multiset{x}
  {
    if |s| == 0 || !Ahead(key(s[0]), key(x), desc) then [x] + s
    else
      assert s == [s[0]] + s[1..];
      [s[0]] + Insert(x, s[1..], key, desc)
  }

  lemma {:induction false} InsertSorted<T>(x: T, s: seq<T>, key: T -> Key, desc: bool)
    requires Sorted(s, key, desc)
    ensures Sorted(Insert(x, s, key, desc), key, desc)
    decreases |s|
  {
    if |s| == 0 {
    } else if !Ahead(key(s[0]), key(x), desc) {
      var r := [x] + s;
      forall j | 1 <= j < |r|
        ensures !Ahead(key(r[j]), key(x), desc)
      {
        if j > 1 {
          AheadTotal(key(s[0]), key(r[j]), desc);
          if Ahead(key(r[j]), key(x), desc) && Ahead(key(s[0]), key(r[j]), desc) {
            AheadTransitive(key(s[0]), key(r[j]), key(x), desc);
          }
        }
      }
    } else {
      InsertSorted(x, s[1..], key, desc);
      var rest := Insert(x, s[1..], key, desc);
      var r := [s[0]] + rest;
      AheadAsymmetric(key(s[0]), key(x), desc);
      assert multiset(rest) == multiset(s[1..]) + multiset{x};
      forall j | 0 < j < |r|
        ensures !Ahead(key(r[j]), key(s[0]), desc)
      {
        assert r[j] in multiset(rest);
        if r[j] != x {
          assert r[j] in multiset(s[1..]);
          var k :| 0 <= k < |s[1..]| && s[1..][k] == r[j];
          assert s[k + 1] == r[j];
        }
      }
    }
  }

  /** `sorted(s, key=key, reverse=desc)`. */
  function Sort<T>(s: seq<T>, key: T -> Key, desc: bool): (r: seq<T>)
    ensures multiset(r) == multiset(s)
    ensures Sorted(r, key, desc)
  {
    if |s| == 0 then []
    else
      assert s == [s[0]] + s[1..];
      InsertSorted(s[0], Sort(s[1..], key, desc), key, desc);
      Insert(s[0], Sort(s[1..], key, desc), key, desc)
  }

  lemma {:induction false} InsertTies<T>(x: T, s: seq<T>, key: T -> Key, desc: bool, k: Key)
    ensures Ties(Insert(x, s, key, desc), key, k)
      == if key(x) == k then [x] + Ties(s, key, k) else Ties(s, key, k)
    decreases |s|
  {
    if |s| == 0 || !Ahead(key(s[0]), key(x), desc) {
      assert ([x] + s)[1..] == s;
    } else {
      InsertTies(x, s[1..], key, desc, k);
      AheadIrreflexive(key(x), desc);
      assert ([s[0]] + Insert(x, s[1..], key, desc))[1..] == Insert(x, s[1..], key, desc);
    }
  }

  /** Stability: items with equal keys keep their relative order. */
  lemma {:induction false} SortStable<T>(s: seq<T>, key: T -> Key, desc: bool, k: Key)
    ensures Ties(Sort(s, key, desc), key, k) == Ties(s, key, k)
    decreases |s|
  {
    if |s| > 0 {
      SortStable(s[1..], key, desc, k);
      InsertTies(s[0], Sort(s[1..], key, desc), key, desc, k);
    }
  }

  /** An input that is already in order comes back unchanged. */
  lemma {:induction false} SortSortedIsIdentity<T>(s: seq<T>, key: T -> Key, desc: bool)
    requires Sorted(s, key, desc)
    ensures Sort(s, key, desc) == s
    decreases |s|
  {
    if |s| > 0 {
      assert Sorted(s[1..], key, desc);
      SortSortedIsIdentity(s[1..], key, desc);
      if |s| > 1 {
        assert !Ahead(key(s[1]), key(s[0]), desc);
      }
      assert s == [s[0]] + s[1..];
    }
  }

  /** Sorting twice is sorting once. */
  lemma SortIdempotent<T>(s: seq<T>, key: T -> Key, desc: bool)
    ensures Sort(Sort(s, key, desc), key, desc) == Sort(s, key, desc)
  {
    SortSortedIsIdentity(Sort(s, key, desc), key, desc);
  }
}

=== FILE: variables.dfy ===
/** Variable references in a deployment configuration (`resolve_variable_value`
    and `get_service_principal_credentials`): plain strings, `{"env": NAME}`,
    `{"scope": S, "secret": K}`, and `{"options": [...]}` whose first truthy
    resolution wins. */
module Variables {
  import opened Base
  import opened Json

  /** What resolving a value produces: a string, the text `str(v)` of a
      non-string value, Python's `None`, or the `TypeError` Python raises for
      an environment name that is not a string or options that cannot be
      iterated. */
  datatype Resolution = Text(s: string) | StrOf(v: Value) | Nothing | Raised

  /** `if resolved:` on the resolver's result. `str(v)` of a truthy value is
      never empty. */
  predicate Resolved(r: Resolution) {
    (r.Text? && r.s != "") || r.StrOf?
  }

  /** A resolution the options loop skips over. */
  predicate Skipped(r: Resolution) {
    r.Nothing? || r == Text("")
  }

  /** The secret store, consulted with the reference's `scope` and `secret`;
      `None` covers every failure of the secrets API. */
  type SecretStore = (Value, Value) -> Option<string>

  function Size(v: Value): nat {
    match v
    case List(items) => 1 + SizeOfItems(items)
    case Object(entries) => 1 + SizeOfEntries(entries)
    case _ => 1
  }

  function SizeOfItems(items: seq<Value>): nat {
    if |items| == 0 then 0 else Size(items[0]) + SizeOfItems(items[1..])
  }

  function SizeOfEntries(entries: seq<Entry>): nat {
    if |entries| == 0 then 0 else Size(entries[0].val) + SizeOfEntries(entries[1..])
  }

  lemma {:induction false} LookupIsSmaller(entries: seq<Entry>, key: string)
    requires HasKey(entries, key)
    ensures Size(Lookup(entries, key).value) <= SizeOfEntries(entries)
    decreases |entries|
  {
    if entries[0].key != key {
      LookupIsSmaller(entries[1..], key);
    }
  }

  /** `resolve_secret_value`: a reference with a falsy scope or key resolves
      to `None` without asking the store. */
  function ResolveSecret(scope: Value, key: Value, secrets: SecretStore): (r: Resolution)
    ensures !IsTruthy(scope) || !IsTruthy(key) ==> r == Nothing
    ensures IsTruthy(scope) && IsTruthy(key) && secrets(scope, key).None? ==> r == Nothing
    ensures IsTruthy(scope) && IsTruthy(key) && secrets(scope, key).Some? ==> r == Text(secrets(scope, key).value)
  {
    if !IsTruthy(scope) || !IsTruthy(key) then Nothing
    else match secrets(scope, key)
      case None => Nothing
      case Some(s) => Text(s)
  }

  /** `resolve_variable_value`. */
  function Resolve(v: Value, env: map<string, string>, secrets: SecretStore): (r: Resolution)
    ensures v.Null? ==> r == Nothing
    ensures v.Str? ==> r == Text(v.s)
    ensures !v.Object? && !v.Str? ==> (r.StrOf? <==> IsTruthy(v)) && (r.StrOf? ==> r.v == v) && (!r.StrOf? ==> r == Nothing)
    // an `env` key is looked at first, whatever else the dict holds
    ensures v.Object? && HasKey(v.entries, "env") ==>
      var name := Get(v, "env");
      && (r.Raised? <==> !name.Str?)
      && (name.Str? ==> r == (if name.s in env then Text(env[name.s]) else Nothing))
    // then a secret reference, which needs both keys
    ensures v.Object? && !HasKey(v.entries, "env") && HasKey(v.entries, "scope") && HasKey(v.entries, "secret") ==>
      r == ResolveSecret(Get(v, "scope"), Get(v, "secret"), secrets)
    // then `options`, iterated in order
    ensures v.Object? && !HasKey(v.entries, "env") && !(HasKey(v.entries, "scope") && HasKey(v.entries, "secret"))
            && HasKey(v.entries, "options") ==>
      Size(Get(v, "options")) <= Size(v) && r == ResolveOptions(Get(v, "options"), env, secrets)
    // a dict that is none of the three forms is `str(v)` when non-empty
    ensures v.Object? && !HasKey(v.entries, "env") && !(HasKey(v.entries, "scope") && HasKey(v.entries, "secret"))
            && !HasKey(v.entries, "options") ==>
      (r.StrOf? <==> IsTruthy(v)) && (r.StrOf? ==> r.v == v) && (!r.StrOf? ==> r == Nothing)
    decreases Size(v), 1
  {
    match v
    case Null => Nothing
    case Str(s) => Text(s)
    case Object(entries) =>
      if HasKey(entries, "env") then
        match Get(v, "env")
        case Str(name) => if name in env then Text(env[name]) else Nothing
        case _ => Raised
      else if HasKey(entries, "scope") && HasKey(entries, "secret") then
        ResolveSecret(Get(v, "scope"), Get(v, "secret"), secrets)
      else if HasKey(entries, "options") then
        LookupIsSmaller(entries, "options");
        ResolveOptions(Get(v, "options"), env, secrets)
      else if |entries| > 0 then StrOf(v)
      else Nothing
    case _ => if IsTruthy(v) then StrOf(v) else Nothing
  }

  /** Iterating `value['options']`: a list yields its elements, a string its
      characters and a dict its keys; anything else is not iterable. */
  function ResolveOptions(opts: Value, env: map<string, string>, secrets: SecretStore): (r: Resolution)
    ensures !Skipped(r) || r.Nothing?
    ensures (opts.Null? || opts.Bool? || opts.Int?) <==> r.Raised? && !opts.List?
    ensures opts.Str? ==> r == (if opts.s == "" then Nothing else Text([opts.s[0]]))
    decreases Size(opts), 0
  {
    match opts
    case List(items) => FirstResolved(items, env, secrets)
    case Str(s) => if s == "" then Nothing else Text([s[0]])
    case Object(entries) => FirstNonEmpty(Keys(entries))
    case _ => Raised
  }

  /** The loop over a dict's keys: each key resolves to itself. */
  function FirstNonEmpty(keys: seq<string>): (r: Resolution)
    ensures r.Nothing? <==> forall i :: 0 <= i < |keys| ==> keys[i] == ""
    ensures r.Text? ==> exists i :: 0 <= i < |keys| && keys[i] == r.s && r.s != "" && forall j :: 0 <= j < i ==> keys[j] == ""
    ensures r.Nothing? || r.Text?
  {
    if |keys| == 0 then Nothing
    else if keys[0] != "" then Text(keys[0])
    else
      var r := FirstNonEmpty(keys[1..]);
      assert r.Text? ==> exists i :: 0 <= i < |keys| && keys[i] == r.s && r.s != "" && forall j :: 0 <= j < i ==> keys[j] == "" by {
        if r.Text? {
          var i :| 0 <= i < |keys[1..]| && keys[1..][i] == r.s && r.s != "" && forall j :: 0 <= j < i ==> keys[1..][j] == "";
          assert forall j :: 0 <= j < i + 1 ==> keys[j] == "" by {
            forall j | 0 <= j < i + 1 ensures keys[j] == "" {
              if j > 0 { assert keys[j] == keys[1..][j - 1]; }
            }
          }
        }
      }
      r
  }

  /** The loop over a list of options: the first element that raises or
      resolves to a non-empty string decides; if none does, `None`. */
  function FirstResolved(items: seq<Value>, env: map<string, string>, secrets: SecretStore): (r: Resolution)
    ensures !Skipped(r) || r.Nothing?
    decreases SizeOfItems(items), 2
  {
    if |items| == 0 then Nothing
    else
      var first := Resolve(items[0], env, secrets);
      if !Skipped(first) then first else FirstResolved(items[1..], env, secrets)
  }

  /** The options loop returns the resolution of the first element that is
      not skipped, and `None` exactly when every element is skipped. */
  lemma {:induction false} FirstResolvedIsFirstDecisive(items: seq<Value>, env: map<string, string>, secrets: SecretStore)
    ensures var r := FirstResolved(items, env, secrets);
      (r.Nothing? <==> forall i :: 0 <= i < |items| ==> Skipped(Resolve(items[i], env, secrets)))
      && (!r.Nothing? ==>
            exists i :: 0 <= i < |items| && Resolve(items[i], env, secrets) == r
              && forall j :: 0 <= j < i ==> Skipped(Resolve(items[j], env, secrets)))
    decreases |items|
  {
    if |items| > 0 && Skipped(Resolve(items[0], env, secrets)) {
      var tail := items[1..];
      FirstResolvedIsFirstDecisive(tail, env, secrets);
      assert forall i :: 1 <= i < |items| ==> items[i] == tail[i - 1];
      var r := FirstResolved(tail, env, secrets);
      if !r.Nothing? {
        var i :| 0 <= i < |tail| && Resolve(tail[i], env, secrets) == r
          && forall j :: 0 <= j < i ==> Skipped(Resolve(tail[j], env, secrets));
        assert Resolve(items[i + 1], env, secrets) == r;
        assert forall j :: 0 <= j < i + 1 ==> Skipped(Resolve(items[j], env, secrets)) by {
          forall j | 0 <= j < i + 1 ensures Skipped(Resolve(items[j], env, secrets)) {
            if j > 0 { assert items[j] == tail[j - 1]; }
          }
        }
      }
    } else if |items| > 0 {
      assert Resolve(items[0], env, secrets) == FirstResolved(items, env, secrets);
    }
  }

  /** Running the options loop over a concatenation is running it over the
      first part and, only if that finds nothing, over the second. */
  lemma {:induction false} FirstResolvedAppend(xs: seq<Value>, ys: seq<Value>, env: map<string, string>, secrets: SecretStore)
    ensures FirstResolved(xs + ys, env, secrets)
      == (var a := FirstResolved(xs, env, secrets); if a.Nothing? then FirstResolved(ys, env, secrets) else a)
    decreases |xs|
  {
    if |xs| == 0 {
      assert xs + ys == ys;
    } else {
      assert (xs + ys)[0] == xs[0];
      assert (xs + ys)[1..] == xs[1..] + ys;
      FirstResolvedAppend(xs[1..], ys, env, secrets);
    }
  }

  /** Nesting an options reference first in a list of options is the same as
      splicing its options into the list. */
  lemma NestedOptionsFlatten(xs: seq<Value>, ys: seq<Value>, env: map<string, string>, secrets: SecretStore)
    ensures FirstResolved([Object([Entry("options", List(xs))])] + ys, env, secrets)
      == FirstResolved(xs + ys, env, secrets)
  {
    var nested := Object([Entry("options", List(xs))]);
    assert Get(nested, "options") == List(xs);
    assert Resolve(nested, env, secrets) == FirstResolved(xs, env, secrets);
    assert ([nested] + ys)[1..] == ys;
    FirstResolvedAppend(xs, ys, env, secrets);
  }

  /** An environment reference reads the environment and nothing else. */
  lemma EnvReference(name: string, env: map<string, string>, secrets: SecretStore)
    ensures Resolve(Object([Entry("env", Str(name))]), env, secrets)
      == (if name in env then Text(env[name]) else Nothing)
  {
    assert Get(Object([Entry("env", Str(name))]), "env") == Str(name);
  }

  /** An environment reference whose name is not a string raises. */
  lemma NonStringEnvNameRaises(name: Value, env: map<string, string>, secrets: SecretStore)
    requires !name.Str?
    ensures Resolve(Object([Entry("env", name)]), env, secrets) == Raised
  {
    assert Get(Object([Entry("env", name)]), "env") == name;
  }

  /** `get_service_principal_credentials`: the resolved `(client_id,
      client_secret)` pair, or the exception either resolution raised. */
  datatype SpCredentials = SpCredentials(clientId: Resolution, clientSecret: Resolution) | SpRaised

  function ServicePrincipalCredentials(sp: Value, env: map<string, string>, secrets: SecretStore): (r: SpCredentials)
    ensures !sp.Object? || !IsTruthy(sp) ==> r == SpCredentials(Nothing, Nothing)
    ensures sp.Object? && IsTruthy(sp) ==>
      var id, secret := Resolve(Get(sp, "client_id"), env, secrets), Resolve(Get(sp, "client_secret"), env, secrets);
      (r.SpRaised? <==> id.Raised? || secret.Raised?)
      && (r.SpCredentials? ==> r == SpCredentials(id, secret))
    ensures r.SpCredentials? ==> !r.clientId.Raised? && !r.clientSecret.Raised?
  {
    if !sp.Object? || !IsTruthy(sp) then SpCredentials(Nothing, Nothing)
    else
      var id := Resolve(Get(sp, "client_id"), env, secrets);
      if id.Raised? then SpRaised
      else
        var secret := Resolve(Get(sp, "client_secret"), env, secrets);
        if secret.Raised? then SpRaised else SpCredentials(id, secret)
  }
}
